=== FILE: README.md ===
# Research Portal — a Dafny model of its session and data-view logic

The Research Portal is a single-page Streamlit application (`app.py`). A user logs
in with an `@in.ey.com` address and picks an Excel workbook from the working
directory. The user then chooses, per sheet, the columns to filter on. On the data
view each sheet is narrowed by per-column multiselects and by a free-text search.
This project models the logic behind that flow and proves properties of it:

- `text.dfy` (module `Text`): the Python string built-ins the portal relies on.
  These are `str.isspace`, `strip`, `lower`, `endswith`, substring search and
  `str(int)`.
- `auth.dfy` (module `Auth`): the email gate `authenticate`.
- `file_list.dfy` (module `FileList`): `get_excel_files` after the directory
  scan. Lock files whose names start with `~` are dropped and the rest sorted in
  Python's string order.
- `tables.dfy` (module `Tables`): sheets as ordered rows of cells, boolean-mask
  selection, and `apply_filter`.
- `filters.dfy` (module `Filters`): the per-sheet filter loop of the data view.
  It covers the recording of multiselect values in `active_filters`, the
  "Active Filters" counter and the "Clear All Filters" condition.
- `search.dfy` (module `Search`): the table search. Every cell is rendered as text
  and a row is kept when some cell contains the term, ignoring case.
- `insights.dfy` (module `Insights`): the counting part of `calculate_insights`.
- `sheet_view.dfy` (module `SheetView`): one data-view run for one sheet, which
  records the selections, filters and then searches.
- `session.dfy` (module `Session`): `st.session_state` and the page flow
  login → file selection → filter setup → data view. Every interaction is one
  `Step`, and `Run` performs a sequence of them.

Each Streamlit rerun that changes the state is modelled as one `Action`. A button
acts only on the page that renders it, and the page is a function of the state
(`PageOf`). Everything the script reads from outside becomes a parameter of the
action: the typed email, the names the directory scan returned, the workbook the
loader returned, and the widget values of a run.

Some behaviour of `app.py` is easy to misread, and the model follows what the code
does:

- **Cell text in the search.** The search renders every cell with `astype(str)`
  (line 647), as pandas 2.x does. A column that `read_excel` returns with whole
  numbers and at least one blank is held as float64, so its numbers are searched as
  `5.0` rather than `5` (`Search.IntegerBesideBlankSearchedAsFloat`). Filtering
  keeps a column's dtype, so the columns of the loaded sheet decide.
- **Missing cells and search.** Under pandas 2.x a missing cell of a text, mixed or
  numeric column becomes the text `nan`. A search such as "nan" therefore matches
  rows with missing cells in such columns (`Search.MissingCellMatchesNan`), and the
  `na=False` argument on line 648 never takes effect.
- **Booleans in filters.** `isin` (line 225) compares with Python's `==`, under
  which `True == 1` and `False == 0`. Selecting 1 in a column that holds both TRUE
  and 1 keeps both rows (`Tables.ApplyFilterTrueMatchesOne`).
- **Hidden files.** `get_excel_files` drops only names starting with `~`. It keeps
  names starting with `.` (lines 182-184).
- **Stages.** The stages are `login`, `file_selection`, `filter_setup` and
  `data_view` (lines 167, 258, 360 and 477), and no other stage is ever set.

## Model

| member | source | states |
|---|---|---|
| Auth.Authenticate | app.py:175-177 | An admitted address is blank padding around text whose last ten characters lower-case to `@in.ey.com`. |
| Auth.AuthenticateIgnoresCase | app.py:175-177 | Two addresses that differ only in the case of their ASCII letters are both admitted or both refused. |
| Auth.AuthenticateIgnoresPadding | app.py:175-177 | Whitespace (Python's `isspace` set) around an address never changes the verdict. |
| Auth.AuthenticateAcceptsDomain | app.py:175-177 | Conversely, every address made of blanks, any local part, `@in.ey.com` in any letter case, and blanks is admitted. |
| Auth.AuthenticateRejectsParentDomain | app.py:177 | An address at the parent domain `@ey.com` is refused. |
| Text.StripPadding | app.py:177 | `strip()` gives the same result however much whitespace surrounds the text. |
| Text.StripLeavesNoEdgeSpace | app.py:177 | The result of `strip()` neither starts nor ends with whitespace. |
| Text.StripLeftKeepsTail | app.py:177 | `lstrip` returns a suffix of its input and removes only whitespace. |
| Text.StripRightKeepsHead | app.py:177 | `rstrip` returns a prefix of its input and removes only whitespace, leaving a non-blank last character. |
| Text.LowerStrip | app.py:177 | Lower-casing and stripping commute, so `strip().lower()` equals `lower().strip()`. |
| Text.NatToStringRoundTrip | app.py:647 | The decimal text `astype(str)` gives a non-negative integer cell reads back as that integer. |
| Text.IntToStringInjective | app.py:647 | Distinct integer cells are rendered as distinct texts. |
| Text.ContainsIffOccurs | app.py:648 | The substring test holds exactly when the term occurs at some position of the text. |
| FileList.DropLockFiles | app.py:181-184 | Each name that does not start with `~` is kept exactly as often as scanned; lock files are kept zero times. |
| FileList.Insert | app.py:185 | Inserting into a sorted list keeps it sorted and adds exactly one copy of the name. |
| FileList.SortNames | app.py:185 | `sorted` returns a sorted permutation of its input. |
| FileList.ListWorkbooks | app.py:179-185 | The offered list is sorted, and holds every non-lock name as often as scanned and no lock file. |
| FileList.NameLeTotal | app.py:185 | Python's string order relates any two names. |
| FileList.NameLeTransitive | app.py:185 | Python's string order is transitive. |
| FileList.NameLeAntisymmetric | app.py:185 | Two names each ordered before the other are equal. |
| FileList.SortedUnique | app.py:185 | Two sorted arrangements of the same names are identical. |
| FileList.ListWorkbooksIsSorted | app.py:179-185 | Any sorted list holding exactly the scanned non-lock names, with their multiplicities, is the offered list. |
| FileList.ListWorkbooksMembership | app.py:179-185 | A name is offered if and only if it was scanned and does not start with `~`. |
| FileList.ListWorkbooksIdempotent | app.py:179-185 | Listing an offered list again reproduces it. |
| Tables.Where | app.py:225 | Boolean-mask selection keeps exactly the rows passing the test, with their multiplicities, in their original order. |
| Tables.ApplyFilter | app.py:222-226 | An empty selection returns the sheet unchanged. Otherwise exactly the rows whose cell in the column is `==` to a selected value are kept, with multiplicities, in order, and the columns stay the same. |
| Tables.SameValueIsEquivalence | app.py:225 | Python's `==` on cells is an equivalence, and it relates two different cells only when both are booleans or integers. |
| Tables.AmongValuesIffMember | app.py:225 | A cell matches a selection exactly when it is selected itself, or it is a boolean whose integer (1 or 0) is selected, or it is 1 or 0 and the boolean equal to it is selected. |
| Tables.ApplyFilterTrueMatchesOne | app.py:222-226 | In a column holding TRUE and 1, selecting 1 keeps both rows. |
| Tables.WhereExtensional | app.py:225 | Selection depends only on which rows the test accepts. |
| Tables.WhereWhere | app.py:546-547 | Selecting by one test and then another is selecting once by their conjunction. |
| Tables.WhereCommutes | app.py:546-547 | Two selections may be applied in either order. |
| Tables.WhereIdempotent | app.py:225 | Selecting twice by the same test is selecting once. |
| Tables.ApplyFilterIdempotent | app.py:222-226 | Applying the same filter twice changes nothing. |
| Tables.ApplyFilterCommutes | app.py:222-226 | Filters on two columns give the same rows in either order. |
| Tables.ApplyFilterRegionExample | app.py:222-226 | Filtering region to East on East, West and East rows keeps the first and third rows, in that order. |
| Filters.FilterSheet | app.py:532-547 | The filter loop never changes the columns and never adds rows. |
| Filters.RecordSelections | app.py:532-543 | After the loop every configured column holds its multiselect's value, and other recorded columns are untouched. |
| Filters.FilterSheetIsConjunction | app.py:532-547 | The loop's rows are the sheet's rows that pass every non-empty selection: the selections combine by AND. |
| Filters.FilterSheetKeepsExactly | app.py:532-547 | A row is displayed if and only if it is in the sheet and satisfies every selection. Multiplicities and the original order are kept. |
| Filters.FilterSheetOrderIrrelevant | app.py:532-547 | The result depends only on which columns carry a non-empty selection, not on their order. |
| Filters.FilterSheetWithoutSelections | app.py:546-547 | With every selection empty the whole sheet is displayed. |
| Filters.FilterSheetIdempotent | app.py:532-547 | Running the loop again with the same selections changes nothing. |
| Filters.AnySelected | app.py:550 | "Clear All Filters" is shown exactly when some value of the sheet's recorded selections is a non-empty list. |
| Filters.ActiveFilterCount | app.py:583-586 | The counter never exceeds the number of recorded columns, and it is positive exactly when "Clear All Filters" is shown. |
| Filters.CountAfterRecording | app.py:583-586 | After a run the counter equals the number of configured columns whose multiselect shows a non-empty selection. |
| Search.CellText | app.py:647 | A whole number's text ends in `.0` exactly when its column is float64, and its digits read back as the number. |
| Search.SearchTable | app.py:645-650 | An empty term leaves the table unchanged. Otherwise exactly the rows in which some cell's text contains the term are kept, with multiplicities, in order. Each cell is rendered by its column's dtype. |
| Search.SearchIgnoresCase | app.py:648 | Terms that differ only in letter case select the same rows. |
| Search.SearchIdempotent | app.py:645-650 | Searching the result again for the same term changes nothing. |
| Search.SearchKeepsOccurrence | app.py:645-650 | A row with a cell that contains the term at some position, ignoring case, is kept. |
| Search.SearchDropsNonOccurrence | app.py:645-650 | A row none of whose cells contains the term is dropped by a non-empty search. |
| Search.IntCellsRenderDistinctly | app.py:647 | Two whole numbers in the same column are rendered alike only when they are equal. |
| Search.IntegerBesideBlankSearchedAsFloat | app.py:645-650 | In a column holding 5 and a blank, 5 is searched as `5.0`: the term "0" keeps its row, and the blank (`nan`) row is dropped. |
| Search.MissingCellMatchesNan | app.py:647-648 | A missing cell of a text, mixed or numeric column is searched as `nan`, so the term "NaN" keeps a row whose only cell is missing. |
| Search.SearchRegionExample | app.py:645-650 | Searching "east" keeps the two rows whose region is `East` and drops the `West` row whose sales are 20. |
| Insights.MissingInRow | app.py:208 | A row's missing count is the number of missing cells among its columns. It is at most the number of columns, and zero exactly when no cell is missing. |
| Insights.MissingInColumn | app.py:208 | `isnull().sum()` of one column is the number of missing cells down that column. |
| Insights.MissingValues | app.py:208 | A sheet's missing count is at most rows × columns, and zero exactly when no cell is missing. |
| Insights.MissingValuesByColumns | app.py:208 | Counting row by row gives the total of the per-column counts that `isnull().sum().sum()` adds up. |
| Insights.MissingValuesAppend | app.py:208 | The missing count of two blocks of rows stacked is the sum of their counts. |
| Insights.CalculateInsights | app.py:199-211 | One summary per loaded sheet. It holds that sheet's row and column counts and the sum of its per-column missing counts, which is at most rows × columns. |
| Insights.EmptySheetInsight | app.py:204-208 | A sheet without rows has zero rows and zero missing values, and keeps its column count. |
| SheetView.RunSheet | app.py:524-547 | One run keeps the sheet's columns and never adds rows. It records every configured column's multiselect value and keeps the other recorded columns. |
| SheetView.RunSheetShowsExactly | app.py:514-547 | A sheet's displayed rows are exactly those passing every recorded selection and mentioning the term, in order, with the sheet's columns. |
| SheetView.RunSheetShowsAllWhenIdle | app.py:546-547 | With no selection and no search term the whole sheet is displayed. |
| SheetView.RunSheetCount | app.py:583-586 | After a run the counter equals the number of configured columns with a non-empty selection. |
| Session.PageOf | app.py:231 | The login page is rendered exactly when the session is not authenticated. |
| Session.ChooseFilterColumns | app.py:452-470 | "No filters" configures nothing. Otherwise exactly the loaded sheets with a non-empty column choice are configured, each with that choice. When the multiselects offer only a sheet's own columns, every configured column belongs to its sheet. |
| Session.AccessPortalStep | app.py:254-261 | An unauthenticated session becomes authenticated exactly when the address is admitted. It then records the address as typed and moves to file selection, leaving the loaded data as it was. An authenticated session is unchanged. |
| Session.ExploreStep | app.py:358-360 | The state either stays as it was, or becomes filter setup with a scanned, non-lock workbook selected and nothing else changed. |
| Session.LoadStep | app.py:381-385 | A workbook is loaded only once. On the filter-setup page with nothing loaded, the loader's result is stored; if it has sheets its insights replace the old ones, otherwise they are kept. Only the data and the insights change. |
| Session.ConfigureStep | app.py:446-470 | Only the filter configuration changes. A new configuration names only loaded sheets, each with a non-empty list of its own columns. |
| Session.ViewDataStep | app.py:476-477 | Only the stage changes, and the data view is entered only with a loaded workbook that has sheets. |
| Session.RenderStep | app.py:506-547 | A data-view run changes only the active filters. It never drops a sheet's selections, and leaves those of unconfigured sheets as they were. |
| Session.ClearAllStep | app.py:550-553 | Only the active filters change, and only for the one sheet. When the click takes effect, that sheet had a non-empty selection and now has none. |
| Session.BackStep | app.py:497-503 | From the data view "Back" clears every workbook-related field and returns to file selection as the same user. On any other page nothing changes. |
| Session.Step | app.py:231-553 | No interaction logs a session out or changes its address. An unauthenticated session changes only by a login attempt. |
| Session.InitialInv | app.py:157-173 | A new session satisfies the invariant: it is unauthenticated, on the login stage, with nothing loaded. |
| Session.RecordAllFits | app.py:524-543 | Selections are only ever recorded for configured sheets and their configured columns. |
| Session.RenderPreservesInv | app.py:506-547 | A data-view run preserves the invariant. |
| Session.LoadStoresWorkbook | app.py:381-385 | A load on the filter-setup page with nothing loaded stores the loader's result. A workbook with sheets gets `calculate_insights` of itself, so each sheet's summary has that sheet's row count. |
| Session.LoadPreservesInv | app.py:380-385 | Loading a workbook preserves the invariant; insights are computed exactly when the workbook has sheets. |
| Session.ConfigurePreservesInv | app.py:446-470 | Filter configuration preserves the invariant. |
| Session.ClearAllPreservesInv | app.py:550-553 | "Clear All Filters" preserves the invariant. |
| Session.StepPreservesInv | app.py:231-553 | Every interaction preserves the invariant. |
| Session.RunPreservesInv | app.py:231-553 | Every sequence of interactions preserves the invariant. |
| Session.ReachableStates | app.py:231-503 | In every reachable state an authenticated session belongs to an admitted address. The data view is reached only with a loaded, non-empty workbook and a selected file, and some page is always rendered. |
| Session.UnauthenticatedSeesLogin | app.py:231 | A session that is not authenticated sees the login page whatever its stage, and only a login attempt can change it. |
| Session.FailedLoginChangesNothing | app.py:254-263 | A login attempt with a refused address leaves the session unchanged. |
| Session.SuccessfulLogin | app.py:254-261 | A successful login authenticates the session, records the address as typed, moves to file selection and changes nothing else. |
| Session.ExploreSelectsOfferedWorkbook | app.py:358-360 | "EXPLORE DATA" on a scanned non-lock workbook selects it and moves to filter setup, changing nothing else. Any other choice leaves the state unchanged. |
| Session.ViewDataMovesToDataView | app.py:476-477 | "VIEW DATA" with a loaded workbook moves to the data view and keeps the filter configuration. |
| Session.ConfigureFiltersChoosesSheets | app.py:452-470 | "No filters" configures nothing. Otherwise exactly the loaded sheets with a non-empty column choice are configured, each with that choice. |
| Session.BackIsFreshLogin | app.py:497-503 | "Back" from the data view yields exactly the state a fresh login with the same address yields. |
| Session.BackKeepsIdentity | app.py:497-503 | "Back" never changes whether, or as whom, the session is logged in. |
| Session.RenderRecordsSelections | app.py:524-543 | After a data-view run a configured sheet's active filters hold what its multiselects show, and its counter is the number of non-empty ones. |
| Session.RecordAllCounts | app.py:532-543 | The same, stated for the loop over all sheets. |
| Session.ShownTableMatchesRecorded | app.py:514-547 | A sheet's displayed rows are exactly those passing the selections the run records in the session and mentioning the term, in order. |
| Session.ClearAllFiltersResetsSheet | app.py:550-553 | "Clear All Filters" empties the sheet's selections, so its count drops to zero, and leaves every other sheet's selections unchanged. |
| Session.ClearAllFiltersNeedsActiveFilter | app.py:550-551 | With an active-filter count of zero the button is absent, and a click changes nothing. |

## Left out

- Reading workbooks (`load_excel_file`, lines 187-197) and the directory scan
  (`Path('.').glob`, line 182) are I/O. Their results are parameters of the
  `LoadData` and `Explore` actions. A failed load is `None`.
- File size and modification time (lines 319-352) are not modelled; they are
  display only.
- `Insights.CalculateInsights`: the numeric and text column counts and memory
  usage (lines 206-207 and 209) are not modelled, because they depend on pandas
  dtypes and byte sizes.
- Floating point is not modelled: the "Data Shown" percentage (line 573), the
  column averages (lines 611-629) and fractional cells. Cells are integers,
  text, booleans or missing.
- Date and time cells are not modelled. `astype(str)` renders a date as text such
  as `2024-01-05`, and a missing cell of a date column as `NaT`, not `nan`, so a
  search for "nan" does not match a blank in such a column.
- `Search.CellText`: whole numbers in a float64 column are rendered exactly. Python
  prints those of magnitude 10^16 and above in exponent form, and those above 2^53
  may be rounded; neither is modelled. A column counts as float64 only when it
  holds whole numbers and at least one blank.
- `Search.CellText`: the model follows pandas 2.x. Under pandas 3 the default string
  dtype keeps missing cells missing after `astype(str)`, so with `na=False` they
  would never match; that behaviour is not modelled.
- `Search.CellMentions`: pandas' `str.contains` interprets the term as a regular
  expression. The model treats it as a literal substring, so terms containing
  regular-expression metacharacters are not modelled.
- `Text.Lower`: only ASCII letters are lower-cased; Python's full Unicode
  case mapping is not modelled.
- `Session.RenderStep`: the model assumes that the values a multiselect returns are
  the user's picks. The fact that its options come from the already-filtered sheet
  (line 534), and Streamlit's behaviour when a default is not among them, are not
  modelled.
- Rendering that does not change the state is not modelled. This covers the
  overview summary (lines 213-220 and 387-440), the statistics cards and the table
  itself. The "Back" button is modelled; the rest of the header is not.
- The CSV export (lines 659 onwards) is not modelled. It is an output of the
  displayed table, which `Session.ShownTable` describes.
- `time.sleep` and `st.rerun` are not modelled; each interaction is one `Step`.

=== FILE: auth.dfy ===
/**
 The email gate of the login page: an address is admitted when, after trimming
 surrounding whitespace and lower-casing, it ends with the organisation's domain.
 */
module Auth {
  import opened Text

  /** The domain suffix every admitted address must carry. */
  const Domain: string := "@in.ey.com"

  /** `email.strip().lower().endswith('@in.ey.com')`. An admitted address is blank
      padding around text whose last characters spell the domain in some mix of upper
      and lower case; `AuthenticateAcceptsDomain` is the converse. */
  function Authenticate(email: string): (ok: bool)
    ensures ok ==> exists i, j ::
                     && 0 <= i <= j <= |email| && i + |Domain| <= j
                     && AllSpace(email[..i]) && AllSpace(email[j..]) && Lower(email[j - |Domain|..j]) == Domain
  {
    NormalisedShape(email);
    EndsWith(Lower(Strip(email)), Domain)
  }

  /** The gate looks only at the lower-cased address: two addresses that differ
      only in the case of their letters are both admitted or both refused. */
  lemma AuthenticateIgnoresCase(e1: string, e2: string)
    requires Lower(e1) == Lower(e2)
    ensures Authenticate(e1) <==> Authenticate(e2)
  {
    LowerStrip(e1);
    LowerStrip(e2);
  }

  /** Whitespace around the address never changes the verdict. */
  lemma AuthenticateIgnoresPadding(w1: string, email: string, w2: string)
    requires AllSpace(w1) && AllSpace(w2)
    ensures Authenticate(w1 + email + w2) <==> Authenticate(email)
  {
    StripPadding(w1, email, w2);
  }

  /** Any address whose last characters spell the domain in some mix of upper and
      lower case is admitted, whatever its local part and surrounding blanks. */
  lemma {:induction false} AuthenticateAcceptsDomain(w1: string, local: string, d: string, w2: string)
    requires AllSpace(w1) && AllSpace(w2)
    requires Lower(d) == Domain
    ensures Authenticate(w1 + local + d + w2)
  {
    AuthenticateIgnoresPadding(w1, local + d, w2);
    assert w1 + (local + d) + w2 == w1 + local + d + w2;
    var e := local + d;
    assert e[|e| - 1] == d[|d| - 1];
    assert |d| == |Domain| && Lower(d)[|d| - 1] == 'm';
    assert !IsSpace(e[|e| - 1]);
    assert !AllSpace(e);
    StripLeftAppend(local, d);
    if AllSpace(local) {
      assert Lower(d)[0] == '@';
      LowerCharKeepsSpace(d[0]);
      assert StripLeft(e) == StripLeft(d) == d;
    } else {
      assert StripLeft(e) == StripLeft(local) + d;
    }
    var l := StripLeft(e);
    assert l[|l| - 1] == d[|d| - 1];
    assert Strip(e) == l;
    LowerAppend(l[..|l| - |d|], d);
    assert l == l[..|l| - |d|] + d;
  }

  /** Where the domain sits in an address that passes the normalised test. */
  lemma NormalisedShape(email: string)
    ensures EndsWith(Lower(Strip(email)), Domain) ==> exists i, j ::
              && 0 <= i <= j <= |email| && i + |Domain| <= j
              && AllSpace(email[..i]) && AllSpace(email[j..]) && Lower(email[j - |Domain|..j]) == Domain
  {
    if EndsWith(Lower(Strip(email)), Domain) {
      var l := StripLeft(email);
      StripLeftKeepsTail(email);
      var i := |email| - |l|;
      var r := StripRight(l);
      StripRightKeepsHead(l);
      var j := i + |r|;
      assert r == email[i..j];
      assert email[j..] == l[|r|..];
      LowerDrop(r, |r| - |Domain|);
      assert r[|r| - |Domain|..] == email[j - |Domain|..j];
    }
  }

  /** The bare parent domain `@ey.com` is refused. */
  lemma AuthenticateRejectsParentDomain()
    ensures !Authenticate("jane.doe@ey.com")
  {
    assert Strip("jane.doe@ey.com") == "jane.doe@ey.com";
    assert Lower("jane.doe@ey.com") == "jane.doe@ey.com";
    assert "jane.doe@ey.com"[5..] != Domain;
  }
}

=== FILE: file_list.dfy ===
/**
 The list of workbooks offered on the file-selection page: the names the directory
 scan returned, without Excel's `~` lock files, in Python's string order.
 */
module FileList {

  /** Excel's lock files (`~$Book.xlsx`) start with a tilde. */
  predicate IsLockFile(name: string) {
    |name| > 0 && name[0] == '~'
  }

  /** Python's `a <= b` on strings: lexicographic by code point. */
  predicate NameLe(a: string, b: string)
    decreases |a|
  {
    if a == [] then true
    else if b == [] then false
    else a[0] < b[0] || (a[0] == b[0] && NameLe(a[1..], b[1..]))
  }

  predicate Sorted(names: seq<string>) {
    forall i, j :: 0 <= i < j < |names| ==> NameLe(names[i], names[j])
  }

  /** The names that are not lock files, in scan order. */
  function DropLockFiles(names: seq<string>): (r: seq<string>)
    ensures forall n :: multiset(r)[n] == if IsLockFile(n) then 0 else multiset(names)[n]
    decreases |names|
  {
    if names == [] then []
    else
      assert names == [names[0]] + names[1..];
      if IsLockFile(names[0]) then DropLockFiles(names[1..])
      else [names[0]] + DropLockFiles(names[1..])
  }

  /** Places `n` in front of the first name it does not follow. */
  function Insert(n: string, names: seq<string>): (r: seq<string>)
    requires Sorted(names)
    ensures Sorted(r)
    ensures multiset(r) == multiset(names) + multiset{n}
    decreases |names|
  {
    if names == [] || NameLe(n, names[0]) then
      SortedCons(n, names);
      [n] + names
    else
      NameLeTotal(n, names[0]);
      var rest := Insert(n, names[1..]);
      assert names == [names[0]] + names[1..];
      HeadBelowInserted(names, n, rest);
      [names[0]] + rest
  }

  /** A name placed before a sorted list it does not exceed keeps the list sorted. */
  lemma SortedCons(n: string, names: seq<string>)
    requires Sorted(names) && (names == [] || NameLe(n, names[0]))
    ensures Sorted([n] + names)
  {
    forall j | 0 <= j < |names| ensures NameLe(n, names[j]) {
      if j > 0 {
        NameLeTransitive(n, names[0], names[j]);
      }
    }
  }

  /** The head of a sorted list does not exceed anything in the tail with a larger
      name added, so it can stay in front. */
  lemma HeadBelowInserted(names: seq<string>, n: string, rest: seq<string>)
    requires names != [] && Sorted(names) && NameLe(names[0], n)
    requires multiset(rest) == multiset(names[1..]) + multiset{n}
    ensures forall k :: 0 <= k < |rest| ==> NameLe(names[0], rest[k])
  {
    forall k | 0 <= k < |rest| ensures NameLe(names[0], rest[k]) {
      assert rest[k] in multiset(rest);
      if rest[k] != n {
        assert rest[k] in names[1..];
      }
    }
  }

  /** `sorted(names)`. */
  function SortNames(names: seq<string>): (r: seq<string>)
    ensures Sorted(r)
    ensures multiset(r) == multiset(names)
    decreases |names|
  {
    if names == [] then []
    else
      assert names == [names[0]] + names[1..];
      Insert(names[0], SortNames(names[1..]))
  }

  /** `get_excel_files()` after the directory scan: lock files dropped, the rest sorted. */
  function ListWorkbooks(scanned: seq<string>): (r: seq<string>)
    ensures Sorted(r)
    ensures forall n :: multiset(r)[n] == if IsLockFile(n) then 0 else multiset(scanned)[n]
  {
    SortNames(DropLockFiles(scanned))
  }

  // ---------------------------------------------------------------------------
  // Lemmas
  // ---------------------------------------------------------------------------

  lemma {:induction false} NameLeReflexive(a: string)
    ensures NameLe(a, a)
    decreases |a|
  {
    if a != [] {
      NameLeReflexive(a[1..]);
    }
  }

  lemma {:induction false} NameLeTotal(a: string, b: string)
    ensures NameLe(a, b) || NameLe(b, a)
    decreases |a|
  {
    if a != [] && b != [] && a[0] == b[0] {
      NameLeTotal(a[1..], b[1..]);
    }
  }

  lemma {:induction false} NameLeAntisymmetric(a: string, b: string)
    requires NameLe(a, b) && NameLe(b, a)
    ensures a == b
    decreases |a|
  {
    if a != [] && b != [] {
      NameLeAntisymmetric(a[1..], b[1..]);
      assert a == [a[0]] + a[1..] && b == [b[0]] + b[1..];
    }
  }

  lemma {:induction false} NameLeTransitive(a: string, b: string, c: string)
    requires NameLe(a, b) && NameLe(b, c)
    ensures NameLe(a, c)
    decreases |a|
  {
    if a != [] && b != [] && c != [] && a[0] == b[0] && b[0] == c[0] {
      NameLeTransitive(a[1..], b[1..], c[1..]);
    }
  }

  /** The first element of a sorted sequence is below every element. */
  lemma SortedHeadLeast(a: seq<string>, x: string)
    requires Sorted(a) && x in a
    ensures NameLe(a[0], x)
  {
    var i :| 0 <= i < |a| && a[i] == x;
    if i == 0 {
      NameLeReflexive(x);
    }
  }

  lemma MultisetTail(a: seq<string>)
    requires a != []
    ensures multiset(a[1..]) == multiset(a) - multiset{a[0]}
  {
    assert a == [a[0]] + a[1..];
  }

  /** A sorted sequence is determined by its elements: two sorted arrangements of the
      same names are identical. So `ListWorkbooks` yields the one list `sorted` yields. */
  lemma {:induction false} SortedUnique(a: seq<string>, b: seq<string>)
    requires Sorted(a) && Sorted(b)
    requires multiset(a) == multiset(b)
    ensures a == b
    decreases |a|
  {
    if a != [] {
      assert a[0] in multiset(b);
      assert b != [];
      assert b[0] in multiset(a);
      SortedHeadLeast(b, a[0]);
      SortedHeadLeast(a, b[0]);
      NameLeAntisymmetric(a[0], b[0]);
      MultisetTail(a);
      MultisetTail(b);
      SortedUnique(a[1..], b[1..]);
      assert a == [a[0]] + a[1..] && b == [b[0]] + b[1..];
    } else {
      assert |b| == |multiset(b)| == 0;
    }
  }

  /** The offered list is exactly the sorted list of the scanned names that are not
      lock files: any sorted list of those names, each as often as scanned, equals it. */
  lemma ListWorkbooksIsSorted(scanned: seq<string>, expected: seq<string>)
    requires Sorted(expected)
    requires forall n :: multiset(expected)[n] == if IsLockFile(n) then 0 else multiset(scanned)[n]
    ensures ListWorkbooks(scanned) == expected
  {
    var r := ListWorkbooks(scanned);
    assert multiset(r) == multiset(expected);
    SortedUnique(r, expected);
  }

  /** A name is offered exactly when it was scanned and is not a lock file. */
  lemma ListWorkbooksMembership(scanned: seq<string>, n: string)
    ensures n in ListWorkbooks(scanned) <==> n in scanned && !IsLockFile(n)
  {
    var r := ListWorkbooks(scanned);
    assert n in r <==> multiset(r)[n] > 0;
    assert n in scanned <==> multiset(scanned)[n] > 0;
  }

  /** Listing is idempotent: listing an offered list again reproduces it. */
  lemma ListWorkbooksIdempotent(scanned: seq<string>)
    ensures ListWorkbooks(ListWorkbooks(scanned)) == ListWorkbooks(scanned)
  {
    var r := ListWorkbooks(scanned);
    ListWorkbooksIsSorted(r, r);
  }
}

=== FILE: filters.dfy ===
/**
 The per-sheet filter loop of the data view. Each configured column gets a
 multiselect; the values it shows are recorded in the sheet's active filters and,
 when non-empty, narrow the sheet with `apply_filter`, one column after another.
 */
module Filters {
  import opened Tables

  /** The selected values per column of one sheet: `active_filters[sheet]`. */
  type Selections = map<ColName, seq<Cell>>

  /** `selections.get(column, [])`. */
  function Selected(sel: Selections, c: ColName): seq<Cell> {
    if c in sel then sel[c] else []
  }

  /** Row `x` passes every column filter in `cols`; columns with nothing selected
      let every row through. */
  predicate SatisfiesAll(x: Row, cols: seq<ColName>, sel: Selections) {
    forall c :: c in cols ==> Passes(x, c, Selected(sel, c))
  }

  function SatisfiesAllOf(cols: seq<ColName>, sel: Selections): Row -> bool {
    x => SatisfiesAll(x, cols, sel)
  }

  /** The loop `for filter_col in filter_columns: if selected: df = apply_filter(...)`. */
  function FilterSheet(t: Table, cols: seq<ColName>, sel: Selections): (r: Table)
    ensures r.columns == t.columns
    ensures |r.rows| <= |t.rows|
    decreases |cols|
  {
    if cols == [] then t
    else
      var values := Selected(sel, cols[0]);
      FilterSheet(if values != [] then ApplyFilter(t, cols[0], values) else t, cols[1..], sel)
  }

  /** The value a column's multiselect returns in this run: what the user picked, or,
      if the user left it alone, its default, the selection recorded earlier. */
  function WidgetValue(recorded: Selections, picks: Selections, c: ColName): seq<Cell> {
    if c in picks then picks[c] else Selected(recorded, c)
  }

  /** `active_filters[sheet][filter_col] = selected_values` for every configured
      column, in order. */
  function RecordSelections(recorded: Selections, cols: seq<ColName>, picks: Selections): (r: Selections)
    ensures r.Keys == recorded.Keys + (set c | c in cols)
    ensures forall c :: c in cols ==> r[c] == WidgetValue(recorded, picks, c)
    ensures forall c :: c in recorded && c !in cols ==> r[c] == recorded[c]
    decreases |cols|
  {
    if cols == [] then recorded
    else RecordSelections(recorded[cols[0] := WidgetValue(recorded, picks, cols[0])], cols[1..], picks)
  }

  /** The columns of `sel` with a non-empty selection. */
  function ActiveColumns(sel: Selections): set<ColName> {
    set c | c in sel && sel[c] != []
  }

  /** `any(active_filters[sheet].values())`: the condition for showing "Clear All
      Filters". Some recorded selection is non-empty. */
  function AnySelected(sel: Selections): (b: bool)
    ensures b <==> exists v :: v in sel.Values && v != []
  {
    var b := exists c :: c in sel && sel[c] != [];
    assert b ==> exists v :: v in sel.Values && v != [] by {
      if b {
        var c :| c in sel && sel[c] != [];
        assert sel[c] in sel.Values;
      }
    }
    b
  }

  /** `sum(1 for filters in active_filters.get(sheet, {}).values() if filters)`: the
      "Active Filters" counter. It never exceeds the number of recorded columns, and it
      is positive exactly when "Clear All Filters" is shown. */
  function ActiveFilterCount(sel: Selections): (n: nat)
    ensures n <= |sel|
    ensures n > 0 <==> AnySelected(sel)
  {
    ActiveColumnsBound(sel);
    AnySelectedIffActive(sel);
    |ActiveColumns(sel)|
  }

  // ---------------------------------------------------------------------------
  // Lemmas
  // ---------------------------------------------------------------------------

  /** The filter loop keeps exactly the rows that pass every configured column's filter:
      its result is the logical AND of the selections. */
  lemma {:induction false} FilterSheetIsConjunction(t: Table, cols: seq<ColName>, sel: Selections)
    ensures FilterSheet(t, cols, sel).rows == Where(t.rows, SatisfiesAllOf(cols, sel))
    decreases |cols|
  {
    if cols == [] {
      WhereKeepsAll(t.rows, SatisfiesAllOf(cols, sel));
    } else {
      var c0, rest := cols[0], cols[1..];
      var values := Selected(sel, c0);
      assert cols == [c0] + rest;
      forall x
        ensures SatisfiesAll(x, cols, sel) == (Passes(x, c0, values) && SatisfiesAll(x, rest, sel))
      {
      }
      if values != [] {
        var t' := ApplyFilter(t, c0, values);
        FilterSheetIsConjunction(t', rest, sel);
        WhereWhere(t.rows, IsIn(c0, values), SatisfiesAllOf(rest, sel), SatisfiesAllOf(cols, sel));
      } else {
        FilterSheetIsConjunction(t, rest, sel);
        WhereExtensional(t.rows, SatisfiesAllOf(rest, sel), SatisfiesAllOf(cols, sel));
      }
    }
  }

  /** The rows left after the loop are exactly the rows of the sheet that satisfy every
      non-empty selection, with their multiplicities and in their original order. */
  lemma FilterSheetKeepsExactly(t: Table, cols: seq<ColName>, sel: Selections)
    ensures var r := FilterSheet(t, cols, sel);
      && (forall x :: x in r.rows <==> x in t.rows && SatisfiesAll(x, cols, sel))
      && (forall x :: multiset(r.rows)[x] == if SatisfiesAll(x, cols, sel) then multiset(t.rows)[x] else 0)
      && IsSubsequence(r.rows, t.rows)
  {
    FilterSheetIsConjunction(t, cols, sel);
  }

  /** The loop's result depends only on which columns carry a non-empty selection:
      not on their order, and not on columns whose selection is empty. */
  lemma FilterSheetOrderIrrelevant(t: Table, cols1: seq<ColName>, cols2: seq<ColName>, sel: Selections)
    requires forall c :: (c in cols1 && Selected(sel, c) != []) <==> (c in cols2 && Selected(sel, c) != [])
    ensures FilterSheet(t, cols1, sel) == FilterSheet(t, cols2, sel)
  {
    FilterSheetIsConjunction(t, cols1, sel);
    FilterSheetIsConjunction(t, cols2, sel);
    WhereExtensional(t.rows, SatisfiesAllOf(cols1, sel), SatisfiesAllOf(cols2, sel));
  }

  /** With nothing selected in any configured column the sheet is shown in full. */
  lemma FilterSheetWithoutSelections(t: Table, cols: seq<ColName>, sel: Selections)
    requires forall c :: c in cols ==> Selected(sel, c) == []
    ensures FilterSheet(t, cols, sel) == t
  {
    FilterSheetOrderIrrelevant(t, cols, [], sel);
  }

  /** Running the loop a second time with the same selections changes nothing. */
  lemma FilterSheetIdempotent(t: Table, cols: seq<ColName>, sel: Selections)
    ensures FilterSheet(FilterSheet(t, cols, sel), cols, sel) == FilterSheet(t, cols, sel)
  {
    var r := FilterSheet(t, cols, sel);
    FilterSheetIsConjunction(t, cols, sel);
    FilterSheetIsConjunction(r, cols, sel);
    WhereIdempotent(t.rows, SatisfiesAllOf(cols, sel));
  }

  /** Some selection is non-empty exactly when some column is active. */
  lemma AnySelectedIffActive(sel: Selections)
    ensures AnySelected(sel) <==> ActiveColumns(sel) != {}
  {
    if AnySelected(sel) {
      var c :| c in sel && sel[c] != [];
      assert c in ActiveColumns(sel);
    }
  }

  /** The active columns are among the recorded ones, so there are no more of them. */
  lemma ActiveColumnsBound(sel: Selections)
    ensures |ActiveColumns(sel)| <= |sel|
  {
    assert ActiveColumns(sel) <= sel.Keys;
    SubsetCardinality(ActiveColumns(sel), sel.Keys);
  }

  /** After a run of the loop over all the configured columns, the active-filter count
      is the number of configured columns whose multiselect shows a non-empty
      selection, which is also the number of `apply_filter` calls the loop makes. */
  lemma CountAfterRecording(recorded: Selections, cols: seq<ColName>, picks: Selections)
    requires recorded.Keys <= (set c | c in cols)
    ensures ActiveFilterCount(RecordSelections(recorded, cols, picks))
         == |set c | c in cols && WidgetValue(recorded, picks, c) != []|
  {
    var r := RecordSelections(recorded, cols, picks);
    assert ActiveColumns(r) == set c | c in cols && WidgetValue(recorded, picks, c) != [];
  }

  lemma {:induction false} SubsetCardinality<T>(a: set<T>, b: set<T>)
    requires a <= b
    ensures |a| <= |b|
    decreases |a|
  {
    if a != {} {
      var x :| x in a;
      SubsetCardinality(a - {x}, b - {x});
    }
  }
}

=== FILE: insights.dfy ===
/**
 The per-sheet summary computed once after a workbook is loaded. Only the counts
 are modelled: rows, columns and missing cells.
 */
module Insights {
  import opened Tables

  datatype Insight = Insight(totalRows: nat, totalColumns: nat, missingValues: nat)

  /** The cells of row `x` under the columns `cols`, in column order. */
  function CellsOf(x: Row, cols: seq<ColName>): seq<Cell> {
    seq(|cols|, k requires 0 <= k < |cols| => CellOf(x, cols[k]))
  }

  /** The cells of column `c` down the rows, in row order. */
  function ColumnCells(rows: seq<Row>, c: ColName): seq<Cell> {
    seq(|rows|, k requires 0 <= k < |rows| => CellOf(rows[k], c))
  }

  /** The missing cells of one row among the columns `cols`. */
  function MissingInRow(x: Row, cols: seq<ColName>): (n: nat)
    ensures n == multiset(CellsOf(x, cols))[Null]
    ensures n <= |cols|
    ensures n == 0 <==> forall c :: c in cols ==> CellOf(x, c) != Null
    decreases |cols|
  {
    if cols == [] then 0
    else
      assert forall c :: c in cols <==> c == cols[0] || c in cols[1..];
      assert CellsOf(x, cols) == [CellOf(x, cols[0])] + CellsOf(x, cols[1..]);
      (if CellOf(x, cols[0]) == Null then 1 else 0) + MissingInRow(x, cols[1..])
  }

  /** `df[c].isnull().sum()`: the missing cells of one column. */
  function MissingInColumn(rows: seq<Row>, c: ColName): (n: nat)
    ensures n == multiset(ColumnCells(rows, c))[Null]
    ensures n <= |rows|
    decreases |rows|
  {
    if rows == [] then 0
    else
      assert ColumnCells(rows, c) == [CellOf(rows[0], c)] + ColumnCells(rows[1..], c);
      (if CellOf(rows[0], c) == Null then 1 else 0) + MissingInColumn(rows[1..], c)
  }

  /** `df.isnull().sum().sum()` in the order pandas adds: the per-column counts,
      totalled over the columns. */
  function ColumnTotals(rows: seq<Row>, cols: seq<ColName>): nat
    decreases |cols|
  {
    if cols == [] then 0 else MissingInColumn(rows, cols[0]) + ColumnTotals(rows, cols[1..])
  }

  /** The missing cells of the whole sheet, counted row by row. */
  function MissingValues(rows: seq<Row>, cols: seq<ColName>): (n: nat)
    ensures n <= |rows| * |cols|
    ensures n == 0 <==> forall x, c :: x in rows && c in cols ==> CellOf(x, c) != Null
    decreases |rows|
  {
    if rows == [] then 0
    else
      var m := MissingInRow(rows[0], cols);
      var rest := MissingValues(rows[1..], cols);
      assert (|rows| - 1) * |cols| + |cols| == |rows| * |cols|;
      assert forall x :: x in rows <==> x == rows[0] || x in rows[1..];
      m + rest
  }

  /** The counts `calculate_insights` records for one sheet. */
  function InsightOf(t: Table): Insight {
    Insight(|t.rows|, |t.columns|, MissingValues(t.rows, t.columns))
  }

  /** `calculate_insights(data)`: one summary per loaded sheet. */
  function CalculateInsights(data: map<SheetName, Table>): (r: map<SheetName, Insight>)
    ensures r.Keys == data.Keys
    ensures forall sh :: sh in data ==>
              && r[sh].totalRows == |data[sh].rows| && r[sh].totalColumns == |data[sh].columns|
              && r[sh].missingValues == ColumnTotals(data[sh].rows, data[sh].columns)
    ensures forall sh :: sh in r ==> r[sh].missingValues <= r[sh].totalRows * r[sh].totalColumns
  {
    MissingValuesByColumnsAll(data);
    map sh | sh in data :: InsightOf(data[sh])
  }

  lemma MissingValuesByColumnsAll(data: map<SheetName, Table>)
    ensures forall sh :: sh in data ==>
              MissingValues(data[sh].rows, data[sh].columns) == ColumnTotals(data[sh].rows, data[sh].columns)
  {
    forall sh | sh in data
      ensures MissingValues(data[sh].rows, data[sh].columns) == ColumnTotals(data[sh].rows, data[sh].columns)
    {
      MissingValuesByColumns(data[sh].rows, data[sh].columns);
    }
  }

  /** A sheet with no rows has no missing values and keeps its column count. */
  lemma EmptySheetInsight(cols: seq<ColName>)
    ensures InsightOf(Table(cols, [])) == Insight(0, |cols|, 0)
  {
  }

  /** Counting row by row gives the same total as the column sums pandas adds up. */
  lemma {:induction false} MissingValuesByColumns(rows: seq<Row>, cols: seq<ColName>)
    ensures MissingValues(rows, cols) == ColumnTotals(rows, cols)
    decreases |rows|
  {
    if rows == [] {
      ColumnTotalsOfNoRows(cols);
    } else {
      MissingValuesByColumns(rows[1..], cols);
      ColumnTotalsSplit(rows, cols);
    }
  }

  /** With no rows every column count is zero. */
  lemma {:induction false} ColumnTotalsOfNoRows(cols: seq<ColName>)
    ensures ColumnTotals([], cols) == 0
    decreases |cols|
  {
    if cols != [] {
      ColumnTotalsOfNoRows(cols[1..]);
    }
  }

  /** The column sums split into the first row's missing cells and those of the rest. */
  lemma {:induction false} ColumnTotalsSplit(rows: seq<Row>, cols: seq<ColName>)
    requires rows != []
    ensures ColumnTotals(rows, cols) == MissingInRow(rows[0], cols) + ColumnTotals(rows[1..], cols)
    decreases |cols|
  {
    if cols != [] {
      ColumnTotalsSplit(rows, cols[1..]);
    }
  }

  /** The count is additive: two blocks of rows stacked have the missing cells of both. */
  lemma {:induction false} MissingValuesAppend(a: seq<Row>, b: seq<Row>, cols: seq<ColName>)
    ensures MissingValues(a + b, cols) == MissingValues(a, cols) + MissingValues(b, cols)
    decreases |a|
  {
    if a != [] {
      assert (a + b)[0] == a[0] && (a + b)[1..] == a[1..] + b;
      MissingValuesAppend(a[1..], b, cols);
    } else {
      assert a + b == b;
    }
  }
}

=== FILE: search.dfy ===
/**
 The table search of the data view: every cell is turned into text and a row is
 kept when some cell contains the search term, ignoring case. An empty term shows
 the table unchanged.
 */
module Search {
  import opened Text
  import opened Tables

  /** Whether pandas holds column `c` of a loaded sheet as float64: `read_excel` stores
      a column of whole numbers that has a blank cell as floats. */
  predicate FloatColumn(t: Table, c: ColName) {
    && (exists x :: x in t.rows && CellOf(x, c) == Null)
    && (forall x :: x in t.rows ==> CellOf(x, c).Int? || CellOf(x, c) == Null)
  }

  /** The float64 columns of a loaded sheet. Filtering keeps a column's dtype, so the
      search of a filtered sheet renders its cells by the columns of the loaded one. */
  function FloatColumns(t: Table): set<ColName> {
    set c | c in t.columns && FloatColumn(t, c)
  }

  /** `astype(str)` of one cell; `asFloat` says whether its column is float64. A whole
      number in a float64 column is printed with a trailing ".0", and a missing cell
      becomes the text "nan". */
  function CellText(c: Cell, asFloat: bool): (r: string)
    ensures c.Int? ==> (EndsWith(r, ".0") <==> asFloat)
    ensures c.Int? && c.i >= 0 ==> |r| >= (if asFloat then 2 else 0)
    ensures c.Int? && c.i >= 0 ==> ParseDigits(r[..|r| - (if asFloat then 2 else 0)]) == c.i
  {
    match c
    case Int(i) =>
      var digits := IntToString(i);
      IntToStringHasNoDot(i);
      IntToStringReadsBack(i);
      if asFloat then
        assert (digits + ".0")[..|digits|] == digits;
        digits + ".0"
      else
        assert !EndsWith(digits, ".0") by {
          if |digits| >= 2 {
            assert digits[|digits| - 2..][0] == digits[|digits| - 2];
          }
        }
        assert digits[..|digits|] == digits;
        digits
    case Text(s) => s
    case Bool(b) => if b then "True" else "False"
    case Null => "nan"
  }

  /** `str.contains(term, case=False)` on one cell's text, read as a literal substring. */
  predicate CellMentions(c: Cell, asFloat: bool, term: string) {
    Contains(Lower(CellText(c, asFloat)), Lower(term))
  }

  /** `.any(axis=1)` over the mask: some column of the row mentions the term, each
      cell rendered by its column's dtype (`floats` are the float64 columns). */
  predicate RowMentions(x: Row, cols: seq<ColName>, floats: set<ColName>, term: string) {
    exists c :: c in cols && CellMentions(CellOf(x, c), c in floats, term)
  }

  function MentionsIn(cols: seq<ColName>, floats: set<ColName>, term: string): Row -> bool {
    x => RowMentions(x, cols, floats, term)
  }

  /** `if search_term: df = df[mask]`, where `floats` are the columns the loaded sheet
      holds as float64. */
  function SearchTable(t: Table, floats: set<ColName>, term: string): (r: Table)
    ensures r.columns == t.columns
    ensures term == [] ==> r == t
    ensures forall x :: x in r.rows <==> x in t.rows && (term == [] || RowMentions(x, t.columns, floats, term))
    ensures forall x :: multiset(r.rows)[x] == (if term == [] || RowMentions(x, t.columns, floats, term) then multiset(t.rows)[x] else 0)
    ensures IsSubsequence(r.rows, t.rows)
  {
    if term != [] then Table(t.columns, Where(t.rows, MentionsIn(t.columns, floats, term)))
    else SubsequenceReflexive(t.rows); t
  }

  // ---------------------------------------------------------------------------
  // Lemmas
  // ---------------------------------------------------------------------------

  /** Two search terms that differ only in letter case select the same rows. */
  lemma SearchIgnoresCase(t: Table, floats: set<ColName>, a: string, b: string)
    requires Lower(a) == Lower(b)
    ensures SearchTable(t, floats, a) == SearchTable(t, floats, b)
  {
    assert |a| == |Lower(a)| == |Lower(b)| == |b|;
    if a != [] {
      WhereExtensional(t.rows, MentionsIn(t.columns, floats, a), MentionsIn(t.columns, floats, b));
    }
  }

  /** Searching the result again for the same term changes nothing. */
  lemma SearchIdempotent(t: Table, floats: set<ColName>, term: string)
    ensures SearchTable(SearchTable(t, floats, term), floats, term) == SearchTable(t, floats, term)
  {
    if term != [] {
      WhereIdempotent(t.rows, MentionsIn(t.columns, floats, term));
    }
  }

  /** A row whose cell in a column of the table contains the term at some position,
      ignoring case, is kept by the search. */
  lemma SearchKeepsOccurrence(t: Table, floats: set<ColName>, x: Row, c: ColName, term: string, i: int)
    requires x in t.rows && c in t.columns
    requires OccursAt(Lower(CellText(CellOf(x, c), c in floats)), Lower(term), i)
    ensures x in SearchTable(t, floats, term).rows
  {
    ContainsIffOccurs(Lower(CellText(CellOf(x, c), c in floats)), Lower(term));
  }

  /** A row none of whose cells contains the term anywhere is dropped by a non-empty search. */
  lemma SearchDropsNonOccurrence(t: Table, floats: set<ColName>, x: Row, term: string)
    requires term != []
    requires forall c, i :: c in t.columns ==> !OccursAt(Lower(CellText(CellOf(x, c), c in floats)), Lower(term), i)
    ensures x !in SearchTable(t, floats, term).rows
  {
    forall c | c in t.columns
      ensures !CellMentions(CellOf(x, c), c in floats, term)
    {
      ContainsIffOccurs(Lower(CellText(CellOf(x, c), c in floats)), Lower(term));
    }
  }

  /** Rendering loses nothing about whole numbers: two integers of one column are
      printed alike only when they are equal. */
  lemma IntCellsRenderDistinctly(i: int, j: int, asFloat: bool)
    requires CellText(Int(i), asFloat) == CellText(Int(j), asFloat)
    ensures i == j
  {
    var a, b := IntToString(i), IntToString(j);
    if asFloat {
      assert a == (a + ".0")[..|a|] && b == (b + ".0")[..|b|];
      assert |a| == |b|;
    }
    IntToStringInjective(i, j);
  }

  /** A missing cell is searched as the text "nan", so the search "NaN" keeps a row
      whose only cell is missing: missing cells are not exempt from matching. */
  lemma MissingCellMatchesNan(floats: set<ColName>)
    ensures var x: Row := map["region" := Null];
      SearchTable(Table(["region"], [x]), floats, "NaN").rows == [x]
  {
    var x: Row := map["region" := Null];
    assert Lower("NaN") == "nan";
    assert StartsWith("nan", "nan");
    assert CellMentions(CellOf(x, "region"), "region" in floats, "NaN");
    assert RowMentions(x, ["region"], floats, "NaN");
    var p := MentionsIn(["region"], floats, "NaN");
    assert [x][1..] == [];
    assert Where([x], p) == [x];
  }

  /** A whole number in a column that also has a blank cell is searched as a float:
      5 is searched as "5.0", so the term "0" keeps its row, while the blank cell,
      searched as "nan", does not match. */
  lemma IntegerBesideBlankSearchedAsFloat(five: Row, blank: Row)
    requires CellOf(five, "sales") == Int(5) && CellOf(blank, "sales") == Null
    ensures var t := Table(["sales"], [five, blank]);
      SearchTable(t, FloatColumns(t), "0").rows == [five]
  {
    var t := Table(["sales"], [five, blank]);
    assert blank in t.rows;
    assert forall x :: x in t.rows ==> x == five || x == blank;
    assert FloatColumn(t, "sales");
    assert "sales" in FloatColumns(t);
    var p := MentionsIn(t.columns, FloatColumns(t), "0");
    FloatFiveHasZero();
    NanLacksZero();
    assert p(five) && !p(blank);
    WhereKeepsFirstOfTwo(five, blank, p);
  }

  /** 5 in a float64 column is searched as "5.0", which contains "0". */
  lemma FloatFiveHasZero()
    ensures CellMentions(Int(5), true, "0")
  {
    assert IntToString(5) == "5";
    assert CellText(Int(5), true) == "5.0";
    assert Lower("5.0") == "5.0" && Lower("0") == "0";
    assert OccursAt("5.0", "0", 2);
    ContainsIffOccurs("5.0", "0");
  }

  /** A blank cell, searched as "nan", does not contain "0". */
  lemma NanLacksZero()
    ensures !CellMentions(Null, true, "0")
  {
    assert Lower("nan") == "nan" && Lower("0") == "0";
    ContainsIffOccurs("nan", "0");
    forall k ensures !OccursAt("nan", "0", k) {
      if 0 <= k < 3 {
        assert "nan"[k..k + 1][0] == "nan"[k] != '0';
      }
    }
  }

  /** A worked example: searching "east" keeps the two rows whose region is East,
      though their cells are spelt with a capital E, and drops the West row, whatever
      the dtype of the sales column. */
  lemma SearchRegionExample(east: Row, west: Row, east2: Row, floats: set<ColName>)
    requires CellOf(east, "region") == Text("East") && CellOf(east2, "region") == Text("East")
    requires CellOf(west, "region") == Text("West") && CellOf(west, "sales") == Int(20)
    ensures SearchTable(Table(["region", "sales"], [east, west, east2]), floats, "east").rows == [east, east2]
  {
    var p := MentionsIn(["region", "sales"], floats, "east");
    EastMentioned(east, floats);
    EastMentioned(east2, floats);
    WestNotMentioned(west, floats);
    assert p(east) && p(east2) && !p(west);
    WhereKeepsFirstAndThird(east, west, east2, p);
  }

  lemma EastMentioned(x: Row, floats: set<ColName>)
    requires CellOf(x, "region") == Text("East")
    ensures RowMentions(x, ["region", "sales"], floats, "east")
  {
    assert Lower("East") == "east" && Lower("east") == "east";
    assert StartsWith("east", "east");
    assert CellMentions(CellOf(x, "region"), "region" in floats, "east");
    assert "region" in ["region", "sales"];
  }

  lemma WestNotMentioned(x: Row, floats: set<ColName>)
    requires CellOf(x, "region") == Text("West") && CellOf(x, "sales") == Int(20)
    ensures !RowMentions(x, ["region", "sales"], floats, "east")
  {
    WestNotEast("region" in floats);
    TwentyNotEast("sales" in floats);
    assert forall c :: c in ["region", "sales"] ==> c == "region" || c == "sales";
  }

  /** "West" does not contain "east", ignoring case. */
  lemma WestNotEast(asFloat: bool)
    ensures !CellMentions(Text("West"), asFloat, "east")
  {
    assert Lower("east") == "east";
    assert Lower("West") == "west";
    ContainsSameLength("west", "east");
    assert "west" != "east" by { assert "west"[0] != "east"[0]; }
  }

  /** 20, rendered as "20" or "20.0", does not contain "east". */
  lemma TwentyNotEast(asFloat: bool)
    ensures !CellMentions(Int(20), asFloat, "east")
  {
    assert Lower("east") == "east";
    assert IntToString(20) == "20" by {
      assert NatToString(20) == NatToString(2) + [DigitChar(0)];
    }
    if asFloat {
      assert CellText(Int(20), true) == "20.0";
      assert Lower("20.0") == "20.0";
      ContainsSameLength("20.0", "east");
      assert "20.0" != "east" by { assert "20.0"[0] != "east"[0]; }
    } else {
      assert CellText(Int(20), false) == "20";
      assert Lower("20") == "20";
      ContainsNeedsRoom("20", "east");
    }
  }

  /** A term longer than the text never occurs in it. */
  lemma {:induction false} ContainsNeedsRoom(s: string, sub: string)
    requires |sub| > |s|
    ensures !Contains(s, sub)
    decreases |s|
  {
    if |s| > 0 {
      ContainsNeedsRoom(s[1..], sub);
    }
  }

  /** A term as long as the text occurs in it only if the two are equal. */
  lemma ContainsSameLength(s: string, sub: string)
    requires |sub| == |s|
    ensures Contains(s, sub) <==> s == sub
  {
    if |s| > 0 {
      ContainsNeedsRoom(s[1..], sub);
    }
    assert s[..|sub|] == s;
  }
}

=== FILE: session.dfy ===
/**
 The session state of the portal and the page flow login -> file selection ->
 filter setup -> data view. Every user interaction is one `Step`; a button acts
 only on the page that renders it, and the page is chosen from the state alone.
 */
module Session {
  import opened Auth
  import opened Tables
  import opened Filters
  import opened FileList
  import opened Insights
  import opened Search
  import opened SheetView

  datatype Option<T> = None | Some(value: T)

  /** `st.session_state.stage`. */
  datatype Stage = LoginStage | FileSelection | FilterSetup | DataView

  /** The page the script renders. */
  datatype Page = LoginPage | FileSelectionPage | FilterSetupPage | DataViewPage | NoPage

  /** The sheets of a workbook, by name. */
  type Dataset = map<SheetName, Table>

  /** `st.session_state`. */
  datatype State = State(
    authenticated: bool,
    selectedFile: Option<string>,
    excelData: Option<Dataset>,
    filtersConfig: map<SheetName, seq<ColName>>,
    stage: Stage,
    activeFilters: map<SheetName, Selections>,
    dataInsights: map<SheetName, Insight>,
    userEmail: Option<string>)

  /** The state of a new session. */
  const Initial := State(false, None, None, map[], LoginStage, map[], map[], None)

  /** One interaction with the page.
      - AccessPortal: the "ACCESS PORTAL" button with the typed email;
      - Explore: the "EXPLORE DATA" button, given the names the directory scan found
        and the workbook chosen in the select box;
      - LoadData: a filter-setup run that loads the workbook, given what the loader
        returned (None when it failed);
      - ConfigureFilters: a filter-setup run with the radio choice and, per sheet, the
        columns chosen in its multiselect;
      - ViewData: the "VIEW DATA" button;
      - Render: a data-view run, with, per sheet and column, the values the user picked
        in this run (a column the user left alone shows its recorded selection);
      - ClearAllFilters: the "Clear All Filters" button of one sheet;
      - Back: the "Back" button. */
  datatype Action =
    | AccessPortal(email: string)
    | Explore(scanned: seq<string>, choice: string)
    | LoadData(loaded: Option<Dataset>)
    | ConfigureFilters(useFilters: bool, columnPicks: map<SheetName, seq<ColName>>)
    | ViewData
    | Render(valuePicks: map<SheetName, Selections>)
    | ClearAllFilters(sheet: SheetName)
    | Back

  /** Python truthiness of `st.session_state.excel_data`: loaded and not an empty dict. */
  predicate HasData(d: Option<Dataset>) {
    d.Some? && |d.value| > 0
  }

  /** The branch of the page script that runs: the login page whenever the session is
      not authenticated, otherwise the page of the current stage. */
  function PageOf(s: State): (p: Page)
    ensures p == LoginPage <==> !s.authenticated
  {
    if !s.authenticated then LoginPage
    else match s.stage
      case LoginStage => NoPage
      case FileSelection => FileSelectionPage
      case FilterSetup => FilterSetupPage
      case DataView => DataViewPage
  }

  /** A multiselect only offers the sheet's own columns. */
  predicate ColumnPicksOffered(data: Dataset, picks: map<SheetName, seq<ColName>>) {
    forall sh, c :: sh in picks && sh in data && c in picks[sh] ==> c in data[sh].columns
  }

  /** Lines 452-470: "No filters" empties the configuration; otherwise every sheet with
      a non-empty column choice is configured with that choice. */
  function ChooseFilterColumns(data: Dataset, useFilters: bool, picks: map<SheetName, seq<ColName>>): (r: map<SheetName, seq<ColName>>)
    ensures !useFilters ==> r == map[]
    ensures forall sh :: sh in r <==> useFilters && sh in data && sh in picks && picks[sh] != []
    ensures forall sh :: sh in r ==> r[sh] == picks[sh]
    ensures ColumnPicksOffered(data, picks) ==>
              forall sh, c :: sh in r && c in r[sh] ==> c in data[sh].columns
  {
    if useFilters then map sh | sh in data && sh in picks && picks[sh] != [] :: picks[sh] else map[]
  }

  function SheetSelections(active: map<SheetName, Selections>, sh: SheetName): Selections {
    if sh in active then active[sh] else map[]
  }

  /** The filter loop of a data-view run, over every configured sheet. */
  function RecordAll(data: Dataset, config: map<SheetName, seq<ColName>>,
                     active: map<SheetName, Selections>, picks: map<SheetName, Selections>): map<SheetName, Selections> {
    map sh | sh in active.Keys + (config.Keys * data.Keys) ::
      if sh in config && sh in data
      then RecordSelections(SheetSelections(active, sh), config[sh], SheetSelections(picks, sh))
      else active[sh]
  }

  /** Lines 254-263: "ACCESS PORTAL". */
  function AccessPortalStep(s: State, email: string): (r: State)
    ensures s.authenticated ==> r == s
    ensures !s.authenticated ==> (r.authenticated <==> Authenticate(email))
    ensures !s.authenticated && r.authenticated ==>
              r.userEmail == Some(email) && PageOf(r) == FileSelectionPage && r.excelData == s.excelData
  {
    if PageOf(s) == LoginPage && Authenticate(email)
    then s.(authenticated := true, userEmail := Some(email), stage := FileSelection)
    else s
  }

  /** Lines 298-362: "EXPLORE DATA", offered only when some workbook is listed. */
  function ExploreStep(s: State, scanned: seq<string>, choice: string): (r: State)
    ensures r == s || (&& PageOf(s) == FileSelectionPage && choice in scanned && !IsLockFile(choice)
                       && r == s.(selectedFile := Some(choice), stage := FilterSetup))
  {
    ListWorkbooksMembership(scanned, choice);
    if PageOf(s) == FileSelectionPage && choice in ListWorkbooks(scanned)
    then s.(selectedFile := Some(choice), stage := FilterSetup)
    else s
  }

  /** Lines 381-385: load the workbook once, and summarise it if it has sheets. */
  function LoadStep(s: State, loaded: Option<Dataset>): (r: State)
    ensures s.excelData.Some? ==> r == s
    ensures r.(excelData := s.excelData, dataInsights := s.dataInsights) == s
    ensures r != s && HasData(loaded) ==> r.excelData == loaded && r.dataInsights.Keys == loaded.value.Keys
    ensures PageOf(s) == FilterSetupPage && s.excelData.None? ==>
              && r.excelData == loaded
              && (HasData(loaded) ==> r.dataInsights == CalculateInsights(loaded.value))
              && (!HasData(loaded) ==> r.dataInsights == s.dataInsights)
  {
    if PageOf(s) == FilterSetupPage && s.excelData.None?
    then s.(excelData := loaded,
            dataInsights := if HasData(loaded) then CalculateInsights(loaded.value) else s.dataInsights)
    else s
  }

  /** Lines 446-470: the filter configuration of a filter-setup run. */
  function ConfigureStep(s: State, useFilters: bool, picks: map<SheetName, seq<ColName>>): (r: State)
    ensures r.(filtersConfig := s.filtersConfig) == s
    ensures r.filtersConfig != s.filtersConfig ==>
              && HasData(s.excelData)
              && forall sh :: sh in r.filtersConfig ==>
                   && sh in s.excelData.value && r.filtersConfig[sh] != []
                   && forall c :: c in r.filtersConfig[sh] ==> c in s.excelData.value[sh].columns
  {
    if PageOf(s) == FilterSetupPage && HasData(s.excelData) && ColumnPicksOffered(s.excelData.value, picks)
    then s.(filtersConfig := ChooseFilterColumns(s.excelData.value, useFilters, picks))
    else s
  }

  /** Lines 476-479: "VIEW DATA". */
  function ViewDataStep(s: State): (r: State)
    ensures r.(stage := s.stage) == s
    ensures r.stage == DataView && s.stage != DataView ==> HasData(r.excelData)
  {
    if PageOf(s) == FilterSetupPage && HasData(s.excelData)
    then s.(stage := DataView)
    else s
  }

  /** Lines 506-547: a data-view run records every configured sheet's selections. */
  function RenderStep(s: State, picks: map<SheetName, Selections>): (r: State)
    ensures r.(activeFilters := s.activeFilters) == s
    ensures s.activeFilters.Keys <= r.activeFilters.Keys
    ensures forall sh :: sh in s.activeFilters && sh !in s.filtersConfig ==> r.activeFilters[sh] == s.activeFilters[sh]
  {
    if PageOf(s) == DataViewPage && HasData(s.excelData)
    then s.(activeFilters := RecordAll(s.excelData.value, s.filtersConfig, s.activeFilters, picks))
    else s
  }

  /** Lines 550-553: "Clear All Filters", shown while some selection is non-empty. */
  function ClearAllStep(s: State, sheet: SheetName): (r: State)
    ensures r.(activeFilters := s.activeFilters) == s
    ensures r != s ==> r.activeFilters == s.activeFilters[sheet := map[]] && AnySelected(SheetSelections(s.activeFilters, sheet))
  {
    if && PageOf(s) == DataViewPage && HasData(s.excelData)
       && sheet in s.excelData.value && sheet in s.filtersConfig
       && AnySelected(SheetSelections(s.activeFilters, sheet))
    then s.(activeFilters := s.activeFilters[sheet := map[]])
    else s
  }

  /** Lines 497-504: "Back". */
  function BackStep(s: State): (r: State)
    ensures PageOf(s) != DataViewPage ==> r == s
    ensures PageOf(s) == DataViewPage ==>
              NothingLoaded(r) && PageOf(r) == FileSelectionPage && r.userEmail == s.userEmail
  {
    if PageOf(s) == DataViewPage
    then s.(stage := FileSelection, selectedFile := None, excelData := None,
            filtersConfig := map[], activeFilters := map[], dataInsights := map[])
    else s
  }

  /** The effect of one interaction. */
  function Step(s: State, a: Action): (r: State)
    ensures s.authenticated ==> r.authenticated && r.userEmail == s.userEmail
    ensures !s.authenticated && !a.AccessPortal? ==> r == s
  {
    match a
    case AccessPortal(email) => AccessPortalStep(s, email)
    case Explore(scanned, choice) => ExploreStep(s, scanned, choice)
    case LoadData(loaded) => LoadStep(s, loaded)
    case ConfigureFilters(useFilters, picks) => ConfigureStep(s, useFilters, picks)
    case ViewData => ViewDataStep(s)
    case Render(picks) => RenderStep(s, picks)
    case ClearAllFilters(sheet) => ClearAllStep(s, sheet)
    case Back => BackStep(s)
  }

  /** The state after a sequence of interactions. */
  function Run(s: State, actions: seq<Action>): State
    decreases |actions|
  {
    if actions == [] then s else Run(Step(s, actions[0]), actions[1..])
  }

  // ---------------------------------------------------------------------------
  // Invariant of every reachable state
  // ---------------------------------------------------------------------------

  /** Nothing about a workbook is held. */
  predicate NothingLoaded(s: State) {
    && s.selectedFile == None && s.excelData == None && s.filtersConfig == map[]
    && s.activeFilters == map[] && s.dataInsights == map[]
  }

  /** Every configured sheet is a loaded sheet, with a non-empty list of its own columns. */
  predicate ConfigFits(s: State) {
    match s.excelData
    case None => s.filtersConfig == map[]
    case Some(data) =>
      forall sh :: sh in s.filtersConfig ==>
        && sh in data && s.filtersConfig[sh] != []
        && (forall c :: c in s.filtersConfig[sh] ==> c in data[sh].columns)
  }

  /** Selections are recorded only for configured sheets and their configured columns. */
  predicate ActiveFits(s: State) {
    forall sh :: sh in s.activeFilters ==>
      sh in s.filtersConfig && s.activeFilters[sh].Keys <= (set c | c in s.filtersConfig[sh])
  }

  predicate Inv(s: State) {
    && (s.authenticated <==> s.stage != LoginStage)
    && (s.authenticated ==> s.userEmail.Some? && Authenticate(s.userEmail.value))
    && (!s.authenticated ==> s.userEmail == None)
    && (s.stage == LoginStage || s.stage == FileSelection ==> NothingLoaded(s))
    && (s.stage == FilterSetup || s.stage == DataView ==> s.selectedFile.Some?)
    && (s.stage == FilterSetup ==> s.activeFilters == map[])
    && (s.stage == DataView ==> HasData(s.excelData))
    && s.dataInsights == (if s.excelData.Some? then CalculateInsights(s.excelData.value) else map[])
    && ConfigFits(s)
    && ActiveFits(s)
  }

  lemma InitialInv()
    ensures Inv(Initial)
  {
  }

  /** The selections a data-view run leaves for a configured, loaded sheet. */
  lemma RecordAllAt(data: Dataset, config: map<SheetName, seq<ColName>>,
                    active: map<SheetName, Selections>, picks: map<SheetName, Selections>, sh: SheetName)
    requires sh in config && sh in data
    ensures sh in RecordAll(data, config, active, picks)
    ensures RecordAll(data, config, active, picks)[sh]
         == RecordSelections(SheetSelections(active, sh), config[sh], SheetSelections(picks, sh))
  {
  }

  /** The filter loop records selections only for configured sheets, and within a
      sheet only for its configured columns. */
  lemma RecordAllFits(data: Dataset, config: map<SheetName, seq<ColName>>,
                      active: map<SheetName, Selections>, picks: map<SheetName, Selections>)
    requires forall sh :: sh in active ==> sh in config && active[sh].Keys <= (set c | c in config[sh])
    ensures var r := RecordAll(data, config, active, picks);
      forall sh :: sh in r ==> sh in config && r[sh].Keys <= (set c | c in config[sh])
  {
    var r := RecordAll(data, config, active, picks);
    forall sh | sh in r
      ensures sh in config && r[sh].Keys <= (set c | c in config[sh])
    {
      if sh in config && sh in data {
        RecordAllAt(data, config, active, picks, sh);
        assert SheetSelections(active, sh).Keys <= (set c | c in config[sh]);
      }
    }
  }

  lemma RenderPreservesInv(s: State, picks: map<SheetName, Selections>)
    requires Inv(s)
    ensures Inv(Step(s, Render(picks)))
  {
    if PageOf(s) == DataViewPage && HasData(s.excelData) {
      RecordAllFits(s.excelData.value, s.filtersConfig, s.activeFilters, picks);
    }
  }

  /** On the filter-setup page with nothing loaded yet, the run stores what the loader
      returned and, when the workbook has sheets, summarises every sheet of it. */
  lemma LoadStoresWorkbook(s: State, loaded: Option<Dataset>)
    requires PageOf(s) == FilterSetupPage && s.excelData.None?
    ensures Step(s, LoadData(loaded)).excelData == loaded
    ensures HasData(loaded) ==> Step(s, LoadData(loaded)).dataInsights == CalculateInsights(loaded.value)
    ensures HasData(loaded) ==> forall sh :: sh in loaded.value ==>
              Step(s, LoadData(loaded)).dataInsights[sh].totalRows == |loaded.value[sh].rows|
  {
  }

  lemma LoadPreservesInv(s: State, loaded: Option<Dataset>)
    requires Inv(s)
    ensures Inv(Step(s, LoadData(loaded)))
  {
    if PageOf(s) == FilterSetupPage && s.excelData.None? && loaded.Some? && !HasData(loaded) {
      assert CalculateInsights(loaded.value) == map[];
    }
  }

  lemma ConfigurePreservesInv(s: State, useFilters: bool, picks: map<SheetName, seq<ColName>>)
    requires Inv(s)
    ensures Inv(Step(s, ConfigureFilters(useFilters, picks)))
  {
    var s' := Step(s, ConfigureFilters(useFilters, picks));
    if s' != s {
      assert s.stage == FilterSetup;
      assert s' == s.(filtersConfig := s'.filtersConfig);
      InvWithFilterConfig(s, s'.filtersConfig);
    }
  }

  /** During filter setup, replacing the configuration by any that names loaded sheets,
      each with a non-empty list of its own columns, keeps the invariant. */
  lemma InvWithFilterConfig(s: State, config: map<SheetName, seq<ColName>>)
    requires Inv(s) && s.stage == FilterSetup && s.excelData.Some?
    requires forall sh :: sh in config ==>
               && sh in s.excelData.value && config[sh] != []
               && forall c :: c in config[sh] ==> c in s.excelData.value[sh].columns
    ensures Inv(s.(filtersConfig := config))
  {
  }

  lemma ClearAllPreservesInv(s: State, sheet: SheetName)
    requires Inv(s)
    ensures Inv(Step(s, ClearAllFilters(sheet)))
  {
    var s' := Step(s, ClearAllFilters(sheet));
    if s' != s {
      ClearedInv(s, sheet);
    }
  }

  /** In the data view, emptying a configured sheet's selections keeps the invariant. */
  lemma ClearedInv(s: State, sheet: SheetName)
    requires Inv(s)
    ensures s.stage == DataView && sheet in s.filtersConfig ==> Inv(s.(activeFilters := s.activeFilters[sheet := map[]]))
  {
    if s.stage == DataView && sheet in s.filtersConfig {
      ClearedFits(s, sheet);
    }
  }

  /** Emptying a configured sheet's selections keeps them within the configuration. */
  lemma ClearedFits(s: State, sheet: SheetName)
    requires ActiveFits(s) && sheet in s.filtersConfig
    ensures ActiveFits(s.(activeFilters := s.activeFilters[sheet := map[]]))
  {
  }

  /** Every interaction preserves the invariant. */
  lemma StepPreservesInv(s: State, a: Action)
    requires Inv(s)
    ensures Inv(Step(s, a))
  {
    match a
    case LoadData(loaded) => LoadPreservesInv(s, loaded);
    case ConfigureFilters(useFilters, picks) => ConfigurePreservesInv(s, useFilters, picks);
    case Render(picks) => RenderPreservesInv(s, picks);
    case ClearAllFilters(sheet) => ClearAllPreservesInv(s, sheet);
    case _ =>
  }

  /** The invariant holds in every state reachable from a new session. */
  lemma {:induction false} RunPreservesInv(s: State, actions: seq<Action>)
    requires Inv(s)
    ensures Inv(Run(s, actions))
    decreases |actions|
  {
    if actions != [] {
      StepPreservesInv(s, actions[0]);
      RunPreservesInv(Step(s, actions[0]), actions[1..]);
    }
  }

  /** In every reachable state an authenticated session belongs to an address the email
      gate admits, and the data view is only ever reached with a loaded workbook. */
  lemma ReachableStates(actions: seq<Action>)
    ensures var s := Run(Initial, actions);
      && (s.authenticated ==> s.userEmail.Some? && Authenticate(s.userEmail.value))
      && (PageOf(s) == DataViewPage ==> HasData(s.excelData) && s.selectedFile.Some?)
      && PageOf(s) != NoPage
  {
    InitialInv();
    RunPreservesInv(Initial, actions);
  }

  // ---------------------------------------------------------------------------
  // Transitions
  // ---------------------------------------------------------------------------

  /** Whatever the stage, a session that is not authenticated sees the login page, and
      nothing but a login attempt changes it. */
  lemma UnauthenticatedSeesLogin(s: State, a: Action)
    requires !s.authenticated
    ensures PageOf(s) == LoginPage
    ensures !a.AccessPortal? ==> Step(s, a) == s
  {
  }

  /** A login attempt with an address the gate refuses leaves the session unchanged. */
  lemma FailedLoginChangesNothing(s: State, email: string)
    requires !Authenticate(email)
    ensures Step(s, AccessPortal(email)) == s
  {
  }

  /** A successful login authenticates the session, records the address exactly as
      typed, and moves to file selection; nothing else changes. */
  lemma SuccessfulLogin(s: State, email: string)
    requires !s.authenticated && Authenticate(email)
    ensures var s' := Step(s, AccessPortal(email));
      && s'.authenticated && s'.userEmail == Some(email) && s'.stage == FileSelection
      && s'.selectedFile == s.selectedFile && s'.excelData == s.excelData
      && s'.filtersConfig == s.filtersConfig && s'.activeFilters == s.activeFilters
      && s'.dataInsights == s.dataInsights
  {
  }

  /** "EXPLORE DATA" selects an offered workbook and moves to filter setup; a name that
      is not offered (a lock file, or one the scan did not find) leaves the state as it
      was. Nothing else changes either way. */
  lemma ExploreSelectsOfferedWorkbook(s: State, scanned: seq<string>, choice: string)
    requires PageOf(s) == FileSelectionPage
    ensures (choice in scanned && !IsLockFile(choice))
      ==> Step(s, Explore(scanned, choice)) == s.(selectedFile := Some(choice), stage := FilterSetup)
    ensures !(choice in scanned && !IsLockFile(choice)) ==> Step(s, Explore(scanned, choice)) == s
  {
    ListWorkbooksMembership(scanned, choice);
  }

  /** "VIEW DATA" moves from filter setup to the data view once a workbook with at least
      one sheet is loaded, and keeps the filter configuration. */
  lemma ViewDataMovesToDataView(s: State)
    requires PageOf(s) == FilterSetupPage && HasData(s.excelData)
    ensures Step(s, ViewData).stage == DataView
    ensures Step(s, ViewData).filtersConfig == s.filtersConfig
  {
  }

  /** "No filters" leaves no sheet configured; otherwise exactly the loaded sheets with a
      non-empty column choice are configured, each with its choice. */
  lemma ConfigureFiltersChoosesSheets(s: State, useFilters: bool, picks: map<SheetName, seq<ColName>>)
    requires PageOf(s) == FilterSetupPage && HasData(s.excelData)
    requires ColumnPicksOffered(s.excelData.value, picks)
    ensures var cfg := Step(s, ConfigureFilters(useFilters, picks)).filtersConfig;
      && (!useFilters ==> cfg == map[])
      && (useFilters ==> forall sh :: sh in cfg <==> sh in s.excelData.value && sh in picks && picks[sh] != [])
      && (forall sh :: sh in cfg ==> cfg[sh] == picks[sh])
  {
  }

  /** "Back" from the data view lands in exactly the state a fresh login with the same
      address produces: the workbook, its insights and all filter state are discarded,
      and the session stays authenticated as the same user. */
  lemma BackIsFreshLogin(s: State)
    requires PageOf(s) == DataViewPage
    requires s.userEmail.Some? && Authenticate(s.userEmail.value)
    ensures Step(s, Back) == Step(Initial, AccessPortal(s.userEmail.value))
  {
  }

  /** "Back" never changes who is logged in. */
  lemma BackKeepsIdentity(s: State)
    ensures Step(s, Back).authenticated == s.authenticated
    ensures Step(s, Back).userEmail == s.userEmail
  {
  }

  /** After a data-view run, a configured sheet's active filters hold what its
      multiselects show, and its "Active Filters" counter is the number of configured
      columns with a non-empty selection. */
  lemma RenderRecordsSelections(s: State, picks: map<SheetName, Selections>, sh: SheetName)
    requires PageOf(s) == DataViewPage && HasData(s.excelData)
    requires sh in s.filtersConfig && sh in s.excelData.value
    requires SheetSelections(s.activeFilters, sh).Keys <= (set c | c in s.filtersConfig[sh])
    ensures var s' := Step(s, Render(picks));
      var before := SheetSelections(s.activeFilters, sh);
      var shown := SheetSelections(picks, sh);
      var cols := s.filtersConfig[sh];
      && sh in s'.activeFilters
      && (forall c :: c in cols ==> Selected(s'.activeFilters[sh], c) == WidgetValue(before, shown, c))
      && ActiveFilterCount(s'.activeFilters[sh]) == |set c | c in cols && WidgetValue(before, shown, c) != []|
  {
    var data := s.excelData.value;
    assert Step(s, Render(picks)).activeFilters == RecordAll(data, s.filtersConfig, s.activeFilters, picks);
    RecordAllCounts(data, s.filtersConfig, s.activeFilters, picks, sh);
  }

  /** The selections the filter loop leaves for one configured, loaded sheet, and its
      counter, when the sheet's earlier selections lie within its configured columns. */
  lemma RecordAllCounts(data: Dataset, config: map<SheetName, seq<ColName>>,
                        active: map<SheetName, Selections>, picks: map<SheetName, Selections>, sh: SheetName)
    requires sh in config && sh in data
    requires SheetSelections(active, sh).Keys <= (set c | c in config[sh])
    ensures var r := RecordAll(data, config, active, picks);
      var before := SheetSelections(active, sh);
      var shown := SheetSelections(picks, sh);
      && sh in r
      && (forall c :: c in config[sh] ==> Selected(r[sh], c) == WidgetValue(before, shown, c))
      && ActiveFilterCount(r[sh]) == |set c | c in config[sh] && WidgetValue(before, shown, c) != []|
  {
    RecordAllAt(data, config, active, picks, sh);
    CountAfterRecording(SheetSelections(active, sh), config[sh], SheetSelections(picks, sh));
  }

  /** The table a data-view run displays for sheet `sh` (lines 514-547 and 645-650): a
      configured sheet goes through its filter loop and then the search, any other
      sheet through the search alone. */
  function ShownTable(s: State, sh: SheetName, picks: map<SheetName, Selections>, term: string): Table
    requires HasData(s.excelData) && sh in s.excelData.value
  {
    var t := s.excelData.value[sh];
    if sh in s.filtersConfig
    then RunSheet(t, s.filtersConfig[sh], SheetSelections(s.activeFilters, sh), SheetSelections(picks, sh), term).shown
    else SearchTable(t, FloatColumns(t), term)
  }

  /** What a data-view run displays agrees with what it records: the rows shown for a
      sheet are exactly its rows that pass every selection the run leaves in the
      session's active filters and mention the search term, in their original order. */
  lemma ShownTableMatchesRecorded(s: State, sh: SheetName, picks: map<SheetName, Selections>, term: string)
    requires PageOf(s) == DataViewPage && HasData(s.excelData) && sh in s.excelData.value
    ensures var t := s.excelData.value[sh];
      var cols := if sh in s.filtersConfig then s.filtersConfig[sh] else [];
      var after := SheetSelections(Step(s, Render(picks)).activeFilters, sh);
      var r := ShownTable(s, sh, picks, term);
      && r.columns == t.columns
      && (forall x :: x in r.rows <==>
            x in t.rows && SatisfiesAll(x, cols, after) && (term == [] || RowMentions(x, t.columns, FloatColumns(t), term)))
      && IsSubsequence(r.rows, t.rows)
  {
    var data := s.excelData.value;
    var after := Step(s, Render(picks)).activeFilters;
    assert after == RecordAll(data, s.filtersConfig, s.activeFilters, picks);
    if sh in s.filtersConfig {
      var before := SheetSelections(s.activeFilters, sh);
      var shown := SheetSelections(picks, sh);
      RunSheetShowsExactly(data[sh], s.filtersConfig[sh], before, shown, term);
      RunSheetRecordsAsRecordAll(data, s.filtersConfig, s.activeFilters, picks, sh, term);
    }
  }

  /** A sheet's run records the same selections as the filter loop over all sheets. */
  lemma RunSheetRecordsAsRecordAll(data: Dataset, config: map<SheetName, seq<ColName>>,
                                   active: map<SheetName, Selections>, picks: map<SheetName, Selections>,
                                   sh: SheetName, term: string)
    requires sh in config && sh in data
    ensures var rec := RecordAll(data, config, active, picks);
      && sh in rec
      && RunSheet(data[sh], config[sh], SheetSelections(active, sh), SheetSelections(picks, sh), term).recorded
         == SheetSelections(rec, sh)
  {
    RecordAllAt(data, config, active, picks, sh);
  }

  /** "Clear All Filters" empties one sheet's selections, so its counter drops to zero,
      and leaves every other sheet's selections as they were. */
  lemma ClearAllFiltersResetsSheet(s: State, sheet: SheetName)
    requires PageOf(s) == DataViewPage && HasData(s.excelData)
    requires sheet in s.excelData.value && sheet in s.filtersConfig
    requires AnySelected(SheetSelections(s.activeFilters, sheet))
    ensures var s' := Step(s, ClearAllFilters(sheet));
      && SheetSelections(s'.activeFilters, sheet) == map[]
      && ActiveFilterCount(SheetSelections(s'.activeFilters, sheet)) == 0
      && (forall sh :: sh != sheet ==> SheetSelections(s'.activeFilters, sh) == SheetSelections(s.activeFilters, sh))
  {
    assert ActiveColumns(map[]) == {};
  }

  /** The button only exists while some selection on the sheet is non-empty: with an
      active-filter count of zero a click changes nothing. */
  lemma ClearAllFiltersNeedsActiveFilter(s: State, sheet: SheetName)
    requires ActiveFilterCount(SheetSelections(s.activeFilters, sheet)) == 0
    ensures Step(s, ClearAllFilters(sheet)) == s
  {
  }
}

=== FILE: sheet_view.dfy ===
/**
 One run of the data view for one configured sheet: the filter loop records the
 multiselect values and narrows the sheet, then the search narrows it further.
 */
module SheetView {
  import opened Tables
  import opened Filters
  import opened Search

  /** The outcome of one run for one sheet: the table displayed (and exported) and the
      sheet's active filters after the run. */
  datatype SheetRun = SheetRun(shown: Table, recorded: Selections)

  /** Lines 514-547 and 645-650 of the data view for a sheet whose filter columns are `cols`. */
  function RunSheet(t: Table, cols: seq<ColName>, recorded: Selections, picks: Selections, term: string): (r: SheetRun)
    ensures r.shown.columns == t.columns
    ensures |r.shown.rows| <= |t.rows|
    ensures r.recorded.Keys == recorded.Keys + (set c | c in cols)
    ensures forall c :: c in cols ==> Selected(r.recorded, c) == WidgetValue(recorded, picks, c)
  {
    var rec := RecordSelections(recorded, cols, picks);
    SheetRun(SearchTable(FilterSheet(t, cols, rec), FloatColumns(t), term), rec)
  }

  /** The displayed rows are exactly the rows of the sheet that pass every non-empty
      selection shown by the multiselects and mention the search term, with their
      multiplicities and in their original order; the columns are the sheet's. */
  lemma RunSheetShowsExactly(t: Table, cols: seq<ColName>, recorded: Selections, picks: Selections, term: string)
    ensures var r := RunSheet(t, cols, recorded, picks, term);
      && r.shown.columns == t.columns
      && (forall c :: c in cols ==> Selected(r.recorded, c) == WidgetValue(recorded, picks, c))
      && (forall x :: x in r.shown.rows <==>
            x in t.rows && SatisfiesAll(x, cols, r.recorded) && (term == [] || RowMentions(x, t.columns, FloatColumns(t), term)))
      && IsSubsequence(r.shown.rows, t.rows)
      && |r.shown.rows| <= |t.rows|
  {
    var rec := RecordSelections(recorded, cols, picks);
    var filtered := FilterSheet(t, cols, rec);
    FilterSheetIsConjunction(t, cols, rec);
    var both := x => SatisfiesAll(x, cols, rec) && (term == [] || RowMentions(x, t.columns, FloatColumns(t), term));
    if term != [] {
      WhereWhere(t.rows, SatisfiesAllOf(cols, rec), MentionsIn(t.columns, FloatColumns(t), term), both);
    } else {
      WhereExtensional(t.rows, SatisfiesAllOf(cols, rec), both);
    }
  }

  /** With an empty search term and no value selected in any column, the whole sheet
      is displayed. */
  lemma RunSheetShowsAllWhenIdle(t: Table, cols: seq<ColName>, recorded: Selections, picks: Selections)
    requires forall c :: c in cols ==> WidgetValue(recorded, picks, c) == []
    ensures RunSheet(t, cols, recorded, picks, "").shown == t
  {
    var rec := RecordSelections(recorded, cols, picks);
    FilterSheetWithoutSelections(t, cols, rec);
  }

  /** The "Active Filters" counter after a run equals the number of configured columns
      whose multiselect shows a non-empty selection. */
  lemma RunSheetCount(t: Table, cols: seq<ColName>, recorded: Selections, picks: Selections, term: string)
    requires recorded.Keys <= (set c | c in cols)
    ensures ActiveFilterCount(RunSheet(t, cols, recorded, picks, term).recorded)
         == |set c | c in cols && WidgetValue(recorded, picks, c) != []|
  {
    CountAfterRecording(recorded, cols, picks);
  }
}

=== FILE: tables.dfy ===
/**
 Sheets as the data view sees them: an ordered list of column names and an ordered
 sequence of rows, each row mapping column names to cells. `apply_filter` keeps the
 rows whose cell in one column is among the selected values.
 */
module Tables {

  type ColName = string
  type SheetName = string

  /** A spreadsheet cell after loading: a number, text, a boolean, or missing (NaN). */
  datatype Cell = Int(i: int) | Text(s: string) | Bool(b: bool) | Null

  type Row = map<ColName, Cell>

  datatype Table = Table(columns: seq<ColName>, rows: seq<Row>)

  /** The cell of row `r` in column `c`; a row without that column reads as missing. */
  function CellOf(r: Row, c: ColName): Cell {
    if c in r then r[c] else Null
  }

  /** `a` is obtained from `b` by deleting elements, keeping the order of the rest. */
  predicate IsSubsequence<T(==)>(a: seq<T>, b: seq<T>)
    decreases |b|
  {
    if a == [] then true
    else if b == [] then false
    else (a[0] == b[0] && IsSubsequence(a[1..], b[1..])) || IsSubsequence(a, b[1..])
  }

  /** The rows satisfying `keep`, in their original order: pandas' boolean-mask
      indexing `df[mask]`. */
  function Where(rows: seq<Row>, keep: Row -> bool): (r: seq<Row>)
    ensures |r| <= |rows|
    ensures forall x :: x in r <==> x in rows && keep(x)
    ensures forall x :: multiset(r)[x] == if keep(x) then multiset(rows)[x] else 0
    ensures IsSubsequence(r, rows)
    decreases |rows|
  {
    if rows == [] then []
    else
      var rest := Where(rows[1..], keep);
      assert rows == [rows[0]] + rows[1..];
      if keep(rows[0]) then [rows[0]] + rest else rest
  }

  /** The integer Python's `==` equates with a boolean: `True == 1`, `False == 0`. */
  function BoolAsInt(b: bool): int {
    if b then 1 else 0
  }

  /** Python's `==` between two cells, which `isin` uses to match a cell against a
      selected value: equal values, or a boolean and the integer it equals. Missing
      matches missing, as `isin` matches NaN with NaN. */
  predicate SameValue(a: Cell, b: Cell) {
    || a == b
    || (a.Bool? && b.Int? && b.i == BoolAsInt(a.b))
    || (a.Int? && b.Bool? && a.i == BoolAsInt(b.b))
  }

  /** Some selected value is `==` to cell `v`. */
  predicate AmongValues(v: Cell, values: seq<Cell>) {
    exists k :: 0 <= k < |values| && SameValue(v, values[k])
  }

  /** The test `df[column].isin(values)` applies to one row. */
  function IsIn(c: ColName, values: seq<Cell>): Row -> bool {
    x => AmongValues(CellOf(x, c), values)
  }

  /** Whether a row survives a filter on `c` with selection `values`: an empty
      selection lets every row through. */
  predicate Passes(x: Row, c: ColName, values: seq<Cell>) {
    values == [] || AmongValues(CellOf(x, c), values)
  }

  /** `apply_filter(df, column, filter_values)`. */
  function ApplyFilter(t: Table, c: ColName, values: seq<Cell>): (r: Table)
    ensures r.columns == t.columns
    ensures values == [] ==> r == t
    ensures forall x :: x in r.rows <==> x in t.rows && Passes(x, c, values)
    ensures forall x :: multiset(r.rows)[x] == if Passes(x, c, values) then multiset(t.rows)[x] else 0
    ensures IsSubsequence(r.rows, t.rows)
    ensures |r.rows| <= |t.rows|
  {
    if values != [] then Table(t.columns, Where(t.rows, IsIn(c, values)))
    else SubsequenceReflexive(t.rows); t
  }

  lemma {:induction false} SubsequenceReflexive<T>(a: seq<T>)
    ensures IsSubsequence(a, a)
    decreases |a|
  {
    if a != [] {
      SubsequenceReflexive(a[1..]);
    }
  }

  // ---------------------------------------------------------------------------
  // Lemmas about Where
  // ---------------------------------------------------------------------------

  /** `Where` depends only on which rows the test accepts. */
  lemma {:induction false} WhereExtensional(rows: seq<Row>, p: Row -> bool, q: Row -> bool)
    requires forall x :: p(x) == q(x)
    ensures Where(rows, p) == Where(rows, q)
    decreases |rows|
  {
    if rows != [] {
      WhereExtensional(rows[1..], p, q);
    }
  }

  /** A test every row passes removes nothing. */
  lemma {:induction false} WhereKeepsAll(rows: seq<Row>, p: Row -> bool)
    requires forall x :: p(x)
    ensures Where(rows, p) == rows
    decreases |rows|
  {
    if rows != [] {
      WhereKeepsAll(rows[1..], p);
    }
  }

  /** Filtering by `p` and then by `q` is filtering once by their conjunction. */
  lemma {:induction false} WhereWhere(rows: seq<Row>, p: Row -> bool, q: Row -> bool, both: Row -> bool)
    requires forall x :: both(x) == (p(x) && q(x))
    ensures Where(Where(rows, p), q) == Where(rows, both)
    decreases |rows|
  {
    if rows != [] {
      WhereWhere(rows[1..], p, q, both);
      if p(rows[0]) {
        var rest := Where(rows[1..], p);
        assert ([rows[0]] + rest)[1..] == rest;
      }
    }
  }

  /** The order of two row filters does not matter. */
  lemma WhereCommutes(rows: seq<Row>, p: Row -> bool, q: Row -> bool)
    ensures Where(Where(rows, p), q) == Where(Where(rows, q), p)
  {
    var pq := x => p(x) && q(x);
    var qp := x => q(x) && p(x);
    WhereWhere(rows, p, q, pq);
    WhereWhere(rows, q, p, qp);
    WhereExtensional(rows, pq, qp);
  }

  /** Filtering twice by the same test is filtering once. */
  lemma WhereIdempotent(rows: seq<Row>, p: Row -> bool)
    ensures Where(Where(rows, p), p) == Where(rows, p)
  {
    WhereWhere(rows, p, p, p);
  }

  /** Of two rows where only the first passes the test, `Where` keeps the first. */
  lemma WhereKeepsFirstOfTwo(a: Row, b: Row, p: Row -> bool)
    requires p(a) && !p(b)
    ensures Where([a, b], p) == [a]
  {
    assert [a, b][1..] == [b];
    assert [b][1..] == [];
  }

  /** Of three rows where only the middle one fails the test, `Where` keeps the
      outer two in order. */
  lemma WhereKeepsFirstAndThird(a: Row, b: Row, c: Row, p: Row -> bool)
    requires p(a) && !p(b) && p(c)
    ensures Where([a, b, c], p) == [a, c]
  {
    assert [a, b, c][1..] == [b, c];
    assert [b, c][1..] == [c];
    assert [c][1..] == [];
  }

  // ---------------------------------------------------------------------------
  // Lemmas about ApplyFilter
  // ---------------------------------------------------------------------------

  /** Applying the same filter a second time changes nothing. */
  lemma ApplyFilterIdempotent(t: Table, c: ColName, values: seq<Cell>)
    ensures ApplyFilter(ApplyFilter(t, c, values), c, values) == ApplyFilter(t, c, values)
  {
    if values != [] {
      WhereIdempotent(t.rows, IsIn(c, values));
    }
  }

  /** Filters on two columns can be applied in either order. */
  lemma ApplyFilterCommutes(t: Table, c1: ColName, v1: seq<Cell>, c2: ColName, v2: seq<Cell>)
    ensures ApplyFilter(ApplyFilter(t, c1, v1), c2, v2) == ApplyFilter(ApplyFilter(t, c2, v2), c1, v1)
  {
    if v1 != [] && v2 != [] {
      WhereCommutes(t.rows, IsIn(c1, v1), IsIn(c2, v2));
    }
  }

  /** A worked example: on a sheet whose rows have region East, West and East,
      filtering region to East keeps the first and the third row, in that order. */
  lemma ApplyFilterRegionExample(east: Row, west: Row, east2: Row)
    requires CellOf(east, "region") == Text("East") && CellOf(east2, "region") == Text("East")
    requires CellOf(west, "region") == Text("West")
    ensures ApplyFilter(Table(["region", "sales"], [east, west, east2]), "region", [Text("East")]).rows
         == [east, east2]
  {
    var p := IsIn("region", [Text("East")]);
    assert "West"[0] != "East"[0];
    assert SameValue(Text("East"), [Text("East")][0]);
    assert p(east) && !p(west) && p(east2);
    WhereKeepsFirstAndThird(east, west, east2, p);
  }

  /** `==` on cells is an equivalence, so `isin` splits cells into classes: every
      cell but a boolean, 0 and 1 is alone in its class. */
  lemma SameValueIsEquivalence(a: Cell, b: Cell, c: Cell)
    ensures SameValue(a, a)
    ensures SameValue(a, b) ==> SameValue(b, a)
    ensures SameValue(a, b) && SameValue(b, c) ==> SameValue(a, c)
    ensures SameValue(a, b) && a != b ==> (a.Bool? || a.Int?) && (b.Bool? || b.Int?)
  {
  }

  /** Matching a cell against a selection, stated through membership alone: the cell
      itself is selected, or it is a boolean and its integer is selected, or it is 0
      or 1 and the boolean it equals is selected. */
  lemma AmongValuesIffMember(v: Cell, values: seq<Cell>)
    ensures AmongValues(v, values) <==>
      || v in values
      || (v.Bool? && Int(BoolAsInt(v.b)) in values)
      || (v.Int? && (v.i == 0 || v.i == 1) && Bool(v.i == 1) in values)
  {
    if AmongValues(v, values) {
      var k :| 0 <= k < |values| && SameValue(v, values[k]);
      if v.Int? && values[k].Bool? && v != values[k] {
        assert values[k] == Bool(v.i == 1);
      }
    }
    if v.Bool? && Int(BoolAsInt(v.b)) in values {
      var k :| 0 <= k < |values| && values[k] == Int(BoolAsInt(v.b));
      assert SameValue(v, values[k]);
    }
    if v.Int? && (v.i == 0 || v.i == 1) && Bool(v.i == 1) in values {
      var k :| 0 <= k < |values| && values[k] == Bool(v.i == 1);
      assert SameValue(v, values[k]);
    }
    if v in values {
      var k :| 0 <= k < |values| && values[k] == v;
      assert SameValue(v, values[k]);
    }
  }

  /** A worked example: in a column holding TRUE and 1, selecting 1 keeps both rows,
      because `True == 1` in Python. */
  lemma ApplyFilterTrueMatchesOne(yes: Row, one: Row)
    requires CellOf(yes, "flag") == Bool(true) && CellOf(one, "flag") == Int(1)
    ensures ApplyFilter(Table(["flag"], [yes, one]), "flag", [Int(1)]).rows == [yes, one]
  {
    var p := IsIn("flag", [Int(1)]);
    assert SameValue(Bool(true), [Int(1)][0]) && SameValue(Int(1), [Int(1)][0]);
    assert p(yes) && p(one);
    assert [yes, one][1..] == [one];
    assert [one][1..] == [];
  }
}

=== FILE: text.dfy ===
/**
 String helpers the portal relies on, each the counterpart of a Python built-in:
 `str.isspace`, `str.strip`, `str.lower`, `str.endswith`, substring search (`in`)
 and `str(int)`. Strings are sequences of Unicode scalar values, as in Python 3.
 */
module Text {

  /** Python's `str.isspace` for a single code point. */
  predicate IsSpace(c: char) {
    var n := c as int;
    || 0x09 <= n <= 0x0D
    || 0x1C <= n <= 0x20
    || n == 0x85 || n == 0xA0 || n == 0x1680
    || 0x2000 <= n <= 0x200A
    || n == 0x2028 || n == 0x2029 || n == 0x202F || n == 0x205F || n == 0x3000
  }

  predicate AllSpace(s: string) {
    forall i :: 0 <= i < |s| ==> IsSpace(s[i])
  }

  /** Lower-casing of one character; only the ASCII capitals change. */
  function LowerChar(c: char): char {
    if 'A' <= c <= 'Z' then (c as int + 32) as char else c
  }

  /** Python's `str.lower`, restricted to ASCII letters. */
  function Lower(s: string): string {
    seq(|s|, i requires 0 <= i < |s| => LowerChar(s[i]))
  }

  /** Python's `str.lstrip()` with no argument. */
  function StripLeft(s: string): string
    decreases |s|
  {
    if |s| > 0 && IsSpace(s[0]) then StripLeft(s[1..]) else s
  }

  /** Python's `str.rstrip()` with no argument. */
  function StripRight(s: string): string
    decreases |s|
  {
    if |s| > 0 && IsSpace(s[|s| - 1]) then StripRight(s[..|s| - 1]) else s
  }

  /** Python's `str.strip()` with no argument. */
  function Strip(s: string): string {
    StripRight(StripLeft(s))
  }

  /** Python's `str.endswith`. */
  predicate EndsWith(s: string, suffix: string) {
    |suffix| <= |s| && s[|s| - |suffix|..] == suffix
  }

  predicate StartsWith(s: string, prefix: string) {
    |prefix| <= |s| && s[..|prefix|] == prefix
  }

  /** `sub` occurs in `s` starting at index `i`. */
  predicate OccursAt(s: string, sub: string, i: int) {
    0 <= i && i + |sub| <= |s| && s[i..i + |sub|] == sub
  }

  /** Python's `sub in s`: a scan that tries every starting position in turn. */
  predicate Contains(s: string, sub: string)
    decreases |s|
  {
    StartsWith(s, sub) || (|s| > 0 && Contains(s[1..], sub))
  }

  function DigitChar(d: int): char
    requires 0 <= d < 10
  {
    ('0' as int + d) as char
  }

  /** Decimal digits of a natural number, most significant first, no leading zeros. */
  function NatToString(n: nat): (r: string)
    ensures |r| > 0
    ensures forall i :: 0 <= i < |r| ==> '0' <= r[i] <= '9'
    ensures |r| > 1 ==> r[0] != '0'
    decreases n
  {
    if n < 10 then [DigitChar(n)] else NatToString(n / 10) + [DigitChar(n % 10)]
  }

  /** Python's `str(i)` for an integer: a minus sign, then the decimal digits. */
  function IntToString(i: int): string {
    if i < 0 then "-" + NatToString(-i) else NatToString(i)
  }

  /** The value of a string of decimal digits; the reading `int(s)` performs. */
  function ParseDigits(s: string): int
    decreases |s|
  {
    if s == [] then 0 else ParseDigits(s[..|s| - 1]) * 10 + (s[|s| - 1] as int - '0' as int)
  }

  // ---------------------------------------------------------------------------
  // Lemmas
  // ---------------------------------------------------------------------------

  /** The decimal rendering of a natural number reads back as that number. */
  lemma {:induction false} NatToStringRoundTrip(n: nat)
    ensures ParseDigits(NatToString(n)) == n
    decreases n
  {
    if n >= 10 {
      var p := NatToString(n / 10);
      var s := p + [DigitChar(n % 10)];
      assert s[..|s| - 1] == p;
      NatToStringRoundTrip(n / 10);
    }
  }

  lemma NatToStringInjective(m: nat, n: nat)
    requires NatToString(m) == NatToString(n)
    ensures m == n
  {
    NatToStringRoundTrip(m);
    NatToStringRoundTrip(n);
  }

  /** Different integers are rendered as different strings. */
  lemma IntToStringInjective(i: int, j: int)
    requires IntToString(i) == IntToString(j)
    ensures i == j
  {
    if i < 0 && j < 0 {
      var si, sj := "-" + NatToString(-i), "-" + NatToString(-j);
      assert si[1..] == NatToString(-i);
      assert sj[1..] == NatToString(-j);
      NatToStringInjective(-i, -j);
    } else if i >= 0 && j >= 0 {
      NatToStringInjective(i, j);
    }
  }

  /** `str(i)` of a non-negative integer reads back as `i`. */
  lemma IntToStringReadsBack(i: int)
    ensures i >= 0 ==> ParseDigits(IntToString(i)) == i
  {
    if i >= 0 {
      NatToStringRoundTrip(i);
    }
  }

  /** `str(i)` has no decimal point: a sign and digits only. */
  lemma IntToStringHasNoDot(i: int)
    ensures forall k :: 0 <= k < |IntToString(i)| ==> IntToString(i)[k] != '.'
  {
    if i < 0 {
      var d := NatToString(-i);
      assert forall k :: 1 <= k < |"-" + d| ==> ("-" + d)[k] == d[k - 1];
    }
  }

  /** `Contains` is exactly "there is a position where `sub` occurs". */
  lemma {:induction false} ContainsIffOccurs(s: string, sub: string)
    ensures Contains(s, sub) <==> exists i :: OccursAt(s, sub, i)
    decreases |s|
  {
    if StartsWith(s, sub) {
      assert OccursAt(s, sub, 0);
    } else if |s| > 0 {
      ContainsIffOccurs(s[1..], sub);
      if exists i :: OccursAt(s[1..], sub, i) {
        var i :| OccursAt(s[1..], sub, i);
        assert s[i + 1..i + 1 + |sub|] == s[1..][i..i + |sub|];
        assert OccursAt(s, sub, i + 1);
      }
      forall i | OccursAt(s, sub, i) && i > 0
        ensures OccursAt(s[1..], sub, i - 1)
      {
        assert s[1..][i - 1..i - 1 + |sub|] == s[i..i + |sub|];
      }
    }
  }

  /** Lower-casing never turns a character into whitespace, nor whitespace into anything else. */
  lemma LowerCharKeepsSpace(c: char)
    ensures IsSpace(LowerChar(c)) == IsSpace(c)
  {
  }

  /** Lower-casing commutes with taking a suffix. */
  lemma LowerDrop(s: string, k: nat)
    requires k <= |s|
    ensures Lower(s[k..]) == Lower(s)[k..]
  {
  }

  /** Lower-casing commutes with taking a prefix. */
  lemma LowerTake(s: string, k: nat)
    requires k <= |s|
    ensures Lower(s[..k]) == Lower(s)[..k]
  {
  }

  lemma LowerAppend(a: string, b: string)
    ensures Lower(a + b) == Lower(a) + Lower(b)
  {
  }

  /** Leading whitespace is dropped by `StripLeft` whatever follows it. */
  lemma {:induction false} StripLeftPadding(w: string, s: string)
    requires AllSpace(w)
    ensures StripLeft(w + s) == StripLeft(s)
    decreases |w|
  {
    if w == [] {
      assert w + s == s;
    } else {
      assert (w + s)[1..] == w[1..] + s;
      StripLeftPadding(w[1..], s);
    }
  }

  /** `StripLeft` of a string that is whitespace throughout is empty. */
  lemma StripLeftAllSpace(w: string)
    requires AllSpace(w)
    ensures StripLeft(w) == []
  {
    StripLeftPadding(w, []);
    assert w + [] == w;
  }

  /** `StripLeft` of a concatenation: the tail survives intact unless the head is
      whitespace throughout, in which case stripping continues into the tail. */
  lemma {:induction false} StripLeftAppend(s: string, w: string)
    ensures StripLeft(s + w) == if AllSpace(s) then StripLeft(w) else StripLeft(s) + w
    decreases |s|
  {
    if s == [] {
      assert s + w == w;
    } else if IsSpace(s[0]) {
      assert (s + w)[1..] == s[1..] + w;
      StripLeftAppend(s[1..], w);
      assert AllSpace(s) <==> AllSpace(s[1..]);
    } else {
      assert (s + w)[0] == s[0];
    }
  }

  /** Trailing whitespace is dropped by `StripRight` whatever precedes it. */
  lemma {:induction false} StripRightPadding(s: string, w: string)
    requires AllSpace(w)
    ensures StripRight(s + w) == StripRight(s)
    decreases |w|
  {
    if w == [] {
      assert s + w == s;
    } else {
      var sw := s + w;
      assert sw[|sw| - 1] == w[|w| - 1];
      assert sw[..|sw| - 1] == s + w[..|w| - 1];
      StripRightPadding(s, w[..|w| - 1]);
    }
  }

  /** Surrounding whitespace never changes the result of `Strip`. */
  lemma StripPadding(w1: string, s: string, w2: string)
    requires AllSpace(w1) && AllSpace(w2)
    ensures Strip(w1 + s + w2) == Strip(s)
  {
    assert w1 + s + w2 == w1 + (s + w2);
    StripLeftPadding(w1, s + w2);
    StripLeftAppend(s, w2);
    if AllSpace(s) {
      StripLeftAllSpace(s);
      StripLeftAllSpace(w2);
    } else {
      StripRightPadding(StripLeft(s), w2);
    }
  }

  /** The result of `Strip` has no blank at either end. */
  lemma {:induction false} StripLeavesNoEdgeSpace(s: string)
    ensures var r := Strip(s); r == [] || (!IsSpace(r[0]) && !IsSpace(r[|r| - 1]))
  {
    var l := StripLeft(s);
    StripLeftNoLeadingSpace(s);
    StripRightKeepsHead(l);
  }

  lemma {:induction false} StripLeftNoLeadingSpace(s: string)
    ensures StripLeft(s) == [] || !IsSpace(StripLeft(s)[0])
    decreases |s|
  {
    if |s| > 0 && IsSpace(s[0]) {
      StripLeftNoLeadingSpace(s[1..]);
    }
  }

  /** `StripRight` only removes blanks from the end: the result is a prefix whose last
      character is not blank, and what it removes is blank throughout. */
  lemma {:induction false} StripRightKeepsHead(s: string)
    ensures var r := StripRight(s);
      && |r| <= |s| && r == s[..|r|] && AllSpace(s[|r|..])
      && (r == [] || !IsSpace(r[|r| - 1]))
    decreases |s|
  {
    if |s| > 0 && IsSpace(s[|s| - 1]) {
      var t := s[..|s| - 1];
      StripRightKeepsHead(t);
      var r := StripRight(t);
      assert r == t[..|r|];
      assert t[..|r|] == s[..|r|];
      assert s[|r|..] == t[|r|..] + [s[|s| - 1]];
    }
  }

  /** `StripLeft` only removes blanks from the front: the result is a suffix, and what
      it removes is blank throughout. */
  lemma {:induction false} StripLeftKeepsTail(s: string)
    ensures var r := StripLeft(s);
      |r| <= |s| && r == s[|s| - |r|..] && AllSpace(s[..|s| - |r|])
    decreases |s|
  {
    if |s| > 0 && IsSpace(s[0]) {
      StripLeftKeepsTail(s[1..]);
      var r := StripLeft(s[1..]);
      assert s[1..][|s| - 1 - |r|..] == s[|s| - |r|..];
      assert s[..|s| - |r|] == [s[0]] + s[1..][..|s| - 1 - |r|];
    }
  }

  /** Lower-casing commutes with `StripLeft`. */
  lemma {:induction false} LowerStripLeft(s: string)
    ensures Lower(StripLeft(s)) == StripLeft(Lower(s))
    decreases |s|
  {
    if |s| > 0 {
      LowerCharKeepsSpace(s[0]);
      if IsSpace(s[0]) {
        LowerDrop(s, 1);
        LowerStripLeft(s[1..]);
      }
    }
  }

  /** Lower-casing commutes with `StripRight`. */
  lemma {:induction false} LowerStripRight(s: string)
    ensures Lower(StripRight(s)) == StripRight(Lower(s))
    decreases |s|
  {
    if |s| > 0 {
      LowerCharKeepsSpace(s[|s| - 1]);
      if IsSpace(s[|s| - 1]) {
        LowerTake(s, |s| - 1);
        LowerStripRight(s[..|s| - 1]);
      }
    }
  }

  /** Lower-casing commutes with `Strip`. */
  lemma LowerStrip(s: string)
    ensures Lower(Strip(s)) == Strip(Lower(s))
  {
    LowerStripLeft(s);
    LowerStripRight(StripLeft(s));
  }
}
